=== FILE: README.md ===
# Influencer discovery front-end: a Dafny model

This project models the decision rules of a marketing front-end for finding influencers. It has two pages:
- On the search page (`src/pages/Index.tsx`), users pick search filters and run a search. The search result is stored but never shown: the preview section always lists the same five sample influencers (see below).
- The offer page (`src/pages/OfferPage.tsx`) reloads a stored offer with its filters, runs a sample search for it and lists the offer's previous packages. It also holds a free-package request handler.

Two further components are modelled as standalone components, because neither shown page renders them:
- the free-trial form (`src/components/TrialSection.tsx`);
- the package picker (`src/components/PricingPackages.tsx`).

The offer page's purchase handler (`handlePurchase`) is referenced nowhere, and its `needsMorePackages` flag is computed and never read by what it renders.

Every search, trial and offer request goes to a remote webhook. The model replaces each network call with what it produced: a thrown error, or a response with an `ok` flag and a body that may be missing.

There is one module per source file:

- `JsValues` (shared): JavaScript value semantics used everywhere. It covers `undefined`/`null` as `Option`, the `x || d` fallbacks, the `\s` whitespace class, ASCII upper-casing, and `Number.prototype.toString` on integers with its inverse.
- `SearchResults` (`src/components/SearchResults.tsx`): pure functions of the component's props.
- `InfluencerFilters` (`src/components/InfluencerFilters.tsx`): the record update is a function; the panel's own state is class `FilterPanel`.
- `IndexPage` (`src/pages/Index.tsx`): the request body and reply normalisation are functions; the page's state is class `SearchPage`.
- `PricingPackages` (`src/components/PricingPackages.tsx`): pricing is a set of functions; the custom package's state is class `CustomPackage`.
- `OfferPage` (`src/pages/OfferPage.tsx`): the email check, the outcome and the labels are functions; the page's state is class `OfferView`.
- `TrialSection` (`src/components/TrialSection.tsx`): the loose email check is a function; the form is class `TrialForm`.

React state cells are class fields, and each handler is a method that states the complete new state. An `async` handler is split at its `await`:
- A `Begin…` method makes the synchronous state changes and returns the request body.
- A `Finish…` method takes the abstract response and makes the remaining changes, including the `finally` block.

A counter of requests in flight links the two halves. The trial form's one-second timer is handled the same way: `Submit` schedules it and `TimerFires` is its callback.

Prices are kept in tenths of a dollar, so the rates $0.5, $0.4 and $0.3 per influencer are the exact integers 5, 4 and 3, and a fixed price of $99 is 990.

Two facts about the code as written are visible in the model:
- The search page and the offer page pass the props `result` and `isLoading` to the preview component. That component declares `results`, `totalCount` and `isLoading`, so it ignores `result`. It therefore always lists its five built-in sample influencers and a total of 11212, whatever the search returned. `IndexPage.SearchPage.ResultsSection` and `OfferPage.LoadedOfferScenario` state this.
- The shown offer page has no email input and no control that calls `handleFreePackageRequest`. Its `email` state and the request handler are modelled as written, callable by a client of the class.

## Model

| member | source | states |
|---|---|---|
| JsValues.DecimalRoundTrip | src/components/PricingPackages.tsx:59 | the decimal string of an integer parses back to that integer, so the box text of a slider value encodes the value |
| JsValues.DecimalInjective | src/components/PricingPackages.tsx:59 | different integers have different decimal strings |
| SearchResults.Preview | src/components/SearchResults.tsx:145 | the preview holds min(5, \|results\|) entries, each equal to the entry at the same position of the results |
| SearchResults.MoreCount | src/components/SearchResults.tsx:212 | the figure plus the preview size is the total, and it is negative iff the total is below 5 |
| SearchResults.MoreCountMeaning | src/components/SearchResults.tsx:212 | the "more" figure is total − 5 without clamping: negative iff the total is below 5; for a full list it accounts for every row the preview leaves out |
| SearchResults.FormatNumber | src/components/SearchResults.tsx:112-120 | suffix "M" iff num ≥ 1,000,000, "K" iff 1,000 ≤ num < 1,000,000, none iff num < 1,000; an unsuffixed rendering is the plain decimal string, which parses back to num |
| SearchResults.PlatformIcon | src/components/SearchResults.tsx:95-110 | an icon exists iff the platform is one of instagram, youtube, tiktok, twitter, twitch |
| SearchResults.PlatformIconsDistinct | src/components/SearchResults.tsx:95-110 | the five platforms get five different icons |
| SearchResults.SplitOnSpace | src/components/SearchResults.tsx:150 | `split(' ')` yields at least one piece and no piece holds a space |
| SearchResults.SplitJoinRoundTrip | src/components/SearchResults.tsx:150 | joining the pieces with single spaces gives the name back |
| SearchResults.WordStartsOverPiece | src/components/SearchResults.tsx:150 | a space-free piece contributes just its first character to the word starts, and only when it starts a word |
| SearchResults.Initials | src/components/SearchResults.tsx:150 | at most one character per space-separated piece and never a space; `InitialsAreWordStarts` pins it down exactly |
| SearchResults.InitialsAreWordStarts | src/components/SearchResults.tsx:150 | the avatar initials are exactly the non-space characters that begin the name or follow a space, in order; empty pieces contribute nothing |
| SearchResults.Render | src/components/SearchResults.tsx:122-132 | a spinner and no list iff `isLoading` is true; otherwise the preview of the given or default rows, the given or default total 11212, and that total less 5 |
| SearchResults.DefaultListing | src/components/SearchResults.tsx:27-93 | without props, all five sample influencers are listed with total 11212 and 11207 more |
| InfluencerFilters.UpdateFilter | src/components/InfluencerFilters.tsx:81-83 | the emitted record holds the value under the key, and every other key keeps its value |
| InfluencerFilters.UpdateFilterLaws | src/components/InfluencerFilters.tsx:81-83 | storing a key's current value changes nothing; of two writes to one key only the last is kept |
| InfluencerFilters.SearchEnabled | src/components/InfluencerFilters.tsx:320 | enabled iff the platform key and the category key both hold a non-empty text |
| InfluencerFilters.SearchEnabledIgnoresOtherKeys | src/components/InfluencerFilters.tsx:320 | the button's enabled state (platform and category both non-empty) does not change when size, location or a threshold changes |
| InfluencerFilters.ToggledLocation | src/components/InfluencerFilters.tsx:200 | picking the selected country clears the location; picking any other selects it |
| InfluencerFilters.ToggleTwiceFromNothing | src/components/InfluencerFilters.tsx:199-202 | picking the same country twice from no selection ends with no selection |
| InfluencerFilters.FindLabel | src/components/InfluencerFilters.tsx:184 | `find(...)?.label`: none iff no entry has the value; else the label of the first entry that has it |
| InfluencerFilters.LocationButtonText | src/components/InfluencerFilters.tsx:183-185 | "Select country..." for an empty location; otherwise the first matching country label, and nothing for a value outside the table |
| InfluencerFilters.FilterPanel.constructor | src/components/InfluencerFilters.tsx:77-79 | both lists closed, empty search text |
| InfluencerFilters.FilterPanel.CategoryInputChange | src/components/InfluencerFilters.tsx:85-91 | emits the typed category, sets the search text to it, and opens the list when the text is non-empty, never closing it |
| InfluencerFilters.FilterPanel.CategorySelect | src/components/InfluencerFilters.tsx:93-97 | emits the picked category, closes the list, clears the search text |
| InfluencerFilters.FilterPanel.CategoryInputClick | src/components/InfluencerFilters.tsx:231 | a click opens the category list and changes nothing else |
| InfluencerFilters.FilterPanel.CategoryOpenChange | src/components/InfluencerFilters.tsx:235-238 | opening or closing the category popover sets the flag and clears the search text |
| InfluencerFilters.FilterPanel.LocationOpenChange | src/components/InfluencerFilters.tsx:175 | opening or closing the location popover sets only its flag |
| InfluencerFilters.FilterPanel.LocationSelect | src/components/InfluencerFilters.tsx:199-202 | emits the toggled location and closes the location list |
| InfluencerFilters.PickListedCategoryScenario | src/components/InfluencerFilters.tsx:247-252 | picking any listed category with a platform chosen stores that category, closes the list, clears the search text and enables the search button |
| IndexPage.RequestBody | src/pages/Index.tsx:34-41 | the body copies platform, size, location and category, and sends the first element of each slider array (left out when the array is empty) |
| IndexPage.RequestIgnoresUpperSliderValues | src/pages/Index.tsx:39-40 | slider elements after the first never change the request |
| IndexPage.Normalise | src/pages/Index.tsx:46-51 | a falsy id (missing, null, 0) becomes null; missing accounts become []; a falsy total becomes 0; a falsy platform becomes ""; every other field is kept |
| IndexPage.NormaliseIdempotent | src/pages/Index.tsx:46-51 | a normalised result, read back as a reply, normalises to itself |
| IndexPage.Outcome | src/pages/Index.tsx:44-70 | the normalised reply iff the response is OK and its body reads; the empty result otherwise |
| IndexPage.SilentFailure | src/pages/Index.tsx:52-70 | a thrown error, a non-OK status and an unreadable body all store the same empty result {null, [], 0, ""} |
| IndexPage.SearchPage.constructor | src/pages/Index.tsx:12-23 | initial filters platform "", size "micro", location "", category "", views [2500], rate [0.8]; no result; not searching |
| IndexPage.SearchPage.BeginSearch | src/pages/Index.tsx:25-42 | sets the searching flag, clears the result, and sends the body built from the current filters |
| IndexPage.SearchPage.FinishSearch | src/pages/Index.tsx:44-73 | stores the outcome of the response and always clears the searching flag |
| IndexPage.SearchPage.OnFiltersChange | src/pages/Index.tsx:142-145 | replaces the filters and clears the result |
| IndexPage.SearchPage.ShowsResults | src/pages/Index.tsx:151 | a running search always shows the results section; it is hidden iff there is no result and no search runs |
| IndexPage.SearchPage.ShowsHowItWorks | src/pages/Index.tsx:162 | the how-it-works section shows iff the results section does not |
| IndexPage.SearchPage.ResultsSection | src/pages/Index.tsx:151-156 | the results section shows iff a result exists or a search runs; a spinner while searching, else the component's default listing |
| IndexPage.FailedSearchScenario | src/pages/Index.tsx:25-73 | a search whose call throws leaves the empty result stored and the results section shown |
| PricingPackages.BuyFixed | src/components/PricingPackages.tsx:120 | a fixed package's button passes exactly its id, count and price |
| PricingPackages.FixedPackagesTable | src/components/PricingPackages.tsx:19-48 | starter 30 for $99, professional 100 for $199, enterprise 500 for $299; only enterprise is recommended; a larger package costs more but less per influencer |
| PricingPackages.CustomPriceTenths | src/components/PricingPackages.tsx:50-55 | zero exactly outside 600..10000; otherwise between 0.3 and 0.5 dollars per influencer (`TiersPartitionPrices` gives the exact rate) |
| PricingPackages.TiersPartitionPrices | src/components/PricingPackages.tsx:50-55 | the three tiers do not overlap and cover exactly 600..10000; inside a tier the price is the count times its rate (0.5, 0.4, 0.3 dollars); outside all tiers it is 0 |
| PricingPackages.PriceNotMonotone | src/components/PricingPackages.tsx:51-53 | the price rises within each tier but drops from 1000 to 1001 and from 3000 to 3001 |
| PricingPackages.InputAccepted | src/components/PricingPackages.tsx:63-64 | an accepted value lies in 600..maxInfluencers and has a positive price (`InputAcceptedMeaning` gives the exact range) |
| PricingPackages.InputAcceptedMeaning | src/components/PricingPackages.tsx:63-64 | a parsed non-zero value is taken iff it lies in 600..min(max, 10000); an unparsable or zero value counts as 600; below 600 matches nothing is taken; a first typed digit from 1 to 9 is refused, while a typed "0" counts as 600 and is taken whenever the cap is at least 600 |
| PricingPackages.CustomPackage.constructor | src/components/PricingPackages.tsx:16-17 | count [600], text "600" |
| PricingPackages.CustomPackage.SliderChange | src/components/PricingPackages.tsx:57-60 | stores the slider array and sets the text to the decimal rendering of its first element; an empty array throws after storing it, leaving the text unchanged |
| PricingPackages.CustomPackage.InputChange | src/components/PricingPackages.tsx:62-68 | an accepted value sets the count to [n] and the text to the raw input; any other value changes neither |
| PricingPackages.CustomPackage.Price | src/components/PricingPackages.tsx:70 | the shown price is never negative, and positive iff the count array is non-empty and its first element lies in 600..10000 |
| PricingPackages.CustomPackage.ShowsContact | src/components/PricingPackages.tsx:139 | the contact view needs a count of at least 10000; its tier price is then 0 except at exactly 10000 |
| PricingPackages.CustomPackage.IsCustomAvailable | src/components/PricingPackages.tsx:71 | where the custom card is not offered (500 matches or fewer), no typed value would be accepted anyway |
| PricingPackages.CustomPackage.CustomPurchase | src/components/PricingPackages.tsx:139-191 | from 10000 up the button asks for contact at price 0; below that it buys "custom" at the tier price, which is positive from 600 up |
| PricingPackages.CustomPackage.SliderKeepsTextInStep | src/components/PricingPackages.tsx:57-60 | after a slider change the text reads back as the stored count |
| PricingPackages.CustomCardUnusableBelow600 | src/components/PricingPackages.tsx:64-71 | with 501..599 matches the custom card is offered but no typed value is taken, and the count stays 600 |
| PricingPackages.EmptyInputScenario | src/components/PricingPackages.tsx:63-66 | clearing the box, when 600 is within the cap, sets the count to 600 and leaves the text empty |
| OfferPage.IsValidEmail | src/pages/OfferPage.tsx:68-70 | an accepted address has at least five characters and starts and ends with a character other than whitespace or '@'; `IsValidEmailIsPattern` and `IsValidEmailCharacterised` give its exact language |
| OfferPage.IsValidEmailIsPattern | src/pages/OfferPage.tsx:68-70 | the one-pass check accepts exactly the strings of the anchored pattern: plain run, '@', plain run, '.', plain run |
| OfferPage.IsValidEmailCharacterised | src/pages/OfferPage.tsx:69 | accepted iff there is exactly one '@', it is not first, no character is whitespace, and the part after '@' has a '.' that is neither its first nor its last character |
| OfferPage.IsValidEmailExamples | src/pages/OfferPage.tsx:69 | "foo@bar" is refused and "foo@bar.com" accepted |
| OfferPage.FreePackageGuard | src/pages/OfferPage.tsx:134-136 | the guard passes only for a valid email and a non-empty id, and never for an empty email |
| OfferPage.FreePackageOutcome | src/pages/OfferPage.tsx:153-166 | success iff the response is OK and `success` is truthy; a throw or an unreadable body gives the network message; any other failure gives `error` or the generic message |
| OfferPage.ErrorMessageNeverEmpty | src/pages/OfferPage.tsx:161-166 | a failed request always leaves a non-empty message |
| OfferPage.SampleSearchBody | src/pages/OfferPage.tsx:91-98 | the sample search sends the offer's stored filters unchanged |
| OfferPage.NormaliseSample | src/pages/OfferPage.tsx:103-108 | the id is kept as it came, missing accounts become [], a falsy total becomes 0, a falsy platform becomes the offer's platform |
| OfferPage.SampleAgreesWithSearchPage | src/pages/OfferPage.tsx:103-108 | this page and the search page normalise alike except that an id of 0 is kept here, and the platform fallback is the offer's platform instead of "" |
| OfferPage.PackageTypeLabel | src/pages/OfferPage.tsx:190-199 | a known type gets its label; the result is the type itself iff the type is unknown |
| OfferPage.Capitalise | src/pages/OfferPage.tsx:210 | same length, first character upper-cased, rest unchanged |
| OfferPage.CapitaliseIdempotent | src/pages/OfferPage.tsx:210 | capitalising twice is capitalising once |
| OfferPage.StatusBadge | src/pages/OfferPage.tsx:201-213 | sent or completed iff default, failed iff destructive, every other status secondary; the text is the capitalised status |
| OfferPage.PackageRows | src/pages/OfferPage.tsx:339-344 | one row per package, in order, with its type label and status badge |
| OfferPage.OfferView.constructor | src/pages/OfferPage.tsx:59-66 | loading, nothing loaded, empty email, idle, not submitting |
| OfferPage.NeedsMorePackages | src/pages/OfferPage.tsx:242 | more packages are needed exactly while the matched total exceeds the delivered total by at least one; the page computes the flag and never shows it |
| OfferPage.OfferView.View | src/pages/OfferPage.tsx:215-369 | skeleton iff loading; "not found" iff not loading and no offer; else details of the loaded offer, with the preview component's rendering as the sample section, and the package list shown iff there are packages, holding for each package in order its type label and status badge (`PackageRows`) |
| OfferPage.OfferView.SetEmail | src/pages/OfferPage.tsx:63 | sets the email and nothing else |
| OfferPage.OfferView.BeginFreePackageRequest | src/pages/OfferPage.tsx:133-151 | a request is sent iff the email is non-empty and valid and an id is present; if not, nothing changes; if so, submitting is set, the state is idle, and the body holds the email and the parsed id |
| OfferPage.OfferView.FinishFreePackageRequest | src/pages/OfferPage.tsx:153-169 | the state becomes the outcome's, an error writes its message, success asks for a reload, and submitting always ends |
| OfferPage.OfferView.FetchOffer | src/pages/OfferPage.tsx:73-127 | without an id nothing happens and the page stays loading; otherwise an OK offer is stored and its filters searched, an OK sample reply is stored normalised, the two failures raise their two notices, and both loading flags end |
| OfferPage.MissingIdScenario | src/pages/OfferPage.tsx:74 | without an id the page never leaves its skeleton and a valid email sends nothing |
| OfferPage.LoadedOfferScenario | src/pages/OfferPage.tsx:322-325 | after a loaded offer the sample section lists the component's defaults, whatever the sample search returned |
| TrialSection.LooseEmailCheck | src/components/TrialSection.tsx:16 | an accepted string has at least five characters |
| TrialSection.LooseEmailCheckIsPattern | src/components/TrialSection.tsx:16 | the check accepts exactly the strings containing non-space⁺ '@' non-space⁺ '.' non-space⁺ somewhere |
| TrialSection.OfferPageEmailPassesLooseCheck | src/components/TrialSection.tsx:16 | every address the offer page accepts passes this check |
| TrialSection.LooseCheckAcceptsMore | src/components/TrialSection.tsx:16 | as inputs to the two patterns (not to the form, whose browser validation is not modelled): a leading space or a second '@' passes the loose pattern but not the offer page's |
| TrialSection.SubmissionAccepted | src/components/TrialSection.tsx:16 | an accepted email has at least five characters, and every address the offer page accepts is accepted here |
| TrialSection.TrialForm.constructor | src/components/TrialSection.tsx:10-11 | empty email, not submitted |
| TrialSection.TrialForm.View | src/components/TrialSection.tsx:35-49 | the done card iff submitted, naming the current email |
| TrialSection.TrialForm.EmailChange | src/components/TrialSection.tsx:76 | sets the email and nothing else |
| TrialSection.TrialForm.Submit | src/components/TrialSection.tsx:14-33 | the timer starts iff the email is non-empty and passes the check; otherwise the error notice, and nothing changes |
| TrialSection.TrialForm.TimerFires | src/components/TrialSection.tsx:26-32 | the form becomes submitted and the success notice is raised |
| TrialSection.SubmitThenDoneScenario | src/components/TrialSection.tsx:26-44 | an accepted email left unchanged until the timer fires is the one the done card names |
| TrialSection.EditWhilePendingScenario | src/components/TrialSection.tsx:35-44 | an email edited while the timer is pending replaces the submitted one on the done card |
| TrialSection.DotlessDomainScenario | src/components/TrialSection.tsx:16-22 | "a@b" and "user@localhost", which a browser's email box lets through, each get the error notice and schedule nothing; the form stays shown |

## Left out

- Network calls, page reloads, navigation, notices and timers are I/O. Each `fetch` becomes an abstract response given as a parameter. A reload is a flag, a notice is a returned string, and a timer is a scheduled step.
- Overlapping searches and requests: the source has no token or cancellation. The model does not order the `Finish…` calls of concurrent requests, and each call writes its own outcome.
- Floating point and locale formatting: `toFixed(1)` in the K/M renderings (`SearchResults.FormatNumber` keeps the number and the suffix, not the digits), `toLocaleString`, `formatDate`, the per-influencer price, and float rounding of count × 0.4 and count × 0.3. Prices are exact in tenths of a dollar.
- `parseInt` is a parameter of type `Option<int>`, where None stands for NaN.
- JsValues.DecimalString: models `Number.prototype.toString` only on integers of magnitude below 10^21. From 10^21 on JavaScript prints exponent form ("1e+21"), and the model still prints all the digits. The slider text and the plain `formatNumber` rendering are therefore exact only below that bound.
- OfferPage.Capitalise: upper-cases ASCII letters only, not the full Unicode mapping of `toUpperCase`. Strings are sequences of Unicode scalar values, not UTF-16 code units, so `charAt(0)` of an astral character is not modelled.
- SearchResults.Initials: `n[0]` takes the first UTF-16 code unit of a piece. The model's strings are sequences of Unicode scalar values, so for a piece starting with an astral character (an emoji, say) the model gives the whole character where JavaScript gives half a surrogate pair.
- OfferPage.PackageTypeLabel: object-literal lookups also see inherited keys such as "toString". The model's table holds only the listed keys.
- OfferPage.StatusBadge: the same holds for the variant table; an inherited key is treated as an unknown status.
- Slider, select and popover bounds are enforced by third-party widgets, not by the repository's code. The model accepts any array from the sliders.
- InfluencerFilters.FilterPanel: the list widget's own value normalisation of the picked item, and the hidden search box, are widget behaviour and are not modelled.
- OfferPage.OfferView.FetchOffer: states only the final state after both calls. The intermediate renders between the two awaits are not modelled, and an offer body without `filters` (which throws) cannot be built in the model.
- PricingPackages.CustomPackage: `maxInfluencers` is a prop that the component reads again on every render. The model fixes it when the instance is constructed, so a parent lowering it while the card stays mounted is not modelled. In that case a count accepted under the old cap stays stored, shown and priced.
- OfferPage.OfferView: the route `id` is fixed when the instance is constructed. A new `id` while the page stays mounted re-runs `fetchOffer` over the previous offer's state; this is not modelled.
- The offer page's `handlePurchase` only raises a notice and is referenced nowhere; it is not modelled. The package picker is modelled on its own, and its `onPurchase` calls are the `Purchase` values it produces. No shown page renders the picker or passes it a handler.
- TrialSection.TrialForm.Submit: the handler is modelled as invoked with the email state as it stands. The browser's constraint validation of the `type="email"`, `required` box inside the `<form>` is not modelled, nor is its sanitisation of the value (it strips leading and trailing whitespace). That validation stops an empty box and the inputs of `TrialSection.LooseCheckAcceptsMore` (" a@b.c" is trimmed, "a@@b.c" is refused) before the handler runs. It does not need a dot in the domain, so addresses such as "a@b" reach the handler and get the error notice (`TrialSection.DotlessDomainScenario`).
- Static sections (FAQ, benefits, testimonials, how-it-works, footer, header), the contact form, and the environment type declarations hold no decision logic and are not part of this model. The lock overlay and placeholder rows of a newer result view do not exist in the shown component and are not modelled.

=== FILE: index_page.dfy ===
/** The search page: the filter record it owns, the search call with its
    request body and its normalisation of the reply (or of a failure) into a
    result, and which sections are shown. The network call itself is not
    modelled: a search is split at its `await` into `BeginSearch`, which
    returns the request body, and `FinishSearch`, which receives what the
    call produced. */
module IndexPage {
  import opened JsValues
  import opened InfluencerFilters
  import SearchResults

  /** One account of a search reply. The page only stores and forwards them. */
  datatype Account = Account(
    userId: string,
    fullName: string,
    username: string,
    picture: string,
    followers: int,
    engagementPercent: real)

  /** The stored result of a search. */
  datatype SearchResult = SearchResult(
    id: Option<int>,
    accounts: seq<Account>,
    total: int,
    platform: string)

  /** The JSON body sent to the search webhook. A field whose value is
      `undefined` (the first slider element of an empty array) is left out of
      the JSON text; None stands for that. */
  datatype SearchRequest = SearchRequest(
    platform: string,
    size: string,
    location: string,
    category: string,
    avgViews: Option<int>,
    er: Option<real>)

  /** The decoded JSON body of a reply; a field is None when it is missing or
      `null`. */
  datatype SearchReply = SearchReply(
    id: Option<int>,
    accounts: Option<seq<Account>>,
    total: Option<int>,
    platform: Option<string>)

  /** What a search call produces: a thrown error (network failure), or a
      response with its `ok` flag and its body, which is None when
      `response.json()` throws. */
  datatype SearchResponse =
    | SearchThrew
    | SearchResponded(ok: bool, body: Option<SearchReply>)

  /** The filters the page starts with. */
  const InitialFilters: FilterState :=
    FilterState("", "micro", "", "", [2500], [0.8])

  /** The first element of a slider array, if there is one. */
  function First<T>(s: seq<T>): Option<T> {
    if |s| > 0 then Some(s[0]) else None
  }

  /** The request body: the four choice fields verbatim, and only the first
      element of each slider array. */
  function RequestBody(f: FilterState): (b: SearchRequest)
    ensures b.platform == f.platform && b.size == f.size
    ensures b.location == f.location && b.category == f.category
    ensures b.avgViews.Some? <==> |f.avgViews| > 0
    ensures b.avgViews.Some? ==> b.avgViews.value == f.avgViews[0]
    ensures b.er.Some? <==> |f.er| > 0
    ensures b.er.Some? ==> b.er.value == f.er[0]
  {
    SearchRequest(f.platform, f.size, f.location, f.category, First(f.avgViews), First(f.er))
  }

  /** Two filter records that differ only beyond the first slider element
      produce the same request. */
  lemma RequestIgnoresUpperSliderValues(f: FilterState, views: seq<int>, rates: seq<real>)
    requires |f.avgViews| > 0 && |f.er| > 0
    ensures RequestBody(f.(avgViews := [f.avgViews[0]] + views, er := [f.er[0]] + rates)) == RequestBody(f)
  {
  }

  /** The result that stands for "nothing found or the search failed". */
  const EmptyResult: SearchResult := SearchResult(None, [], 0, "")

  /** The reply of an OK response, field by field: a falsy `id` (missing,
      null or 0) becomes null, missing `accounts` become [], a falsy `total`
      becomes 0 and a falsy `platform` becomes "". */
  function Normalise(reply: SearchReply): (r: SearchResult)
    ensures r.id.None? <==> reply.id.None? || reply.id == Some(0)
    ensures r.id.Some? ==> r.id == reply.id
    ensures r.accounts == if reply.accounts.Some? then reply.accounts.value else []
    ensures r.total == 0 <==> reply.total.None? || reply.total == Some(0)
    ensures r.total != 0 ==> Some(r.total) == reply.total
    ensures r.platform == "" <==> reply.platform.None? || reply.platform == Some("")
    ensures r.platform != "" ==> Some(r.platform) == reply.platform
  {
    SearchResult(
      if reply.id.Some? && reply.id.value != 0 then reply.id else None,
      if reply.accounts.Some? then reply.accounts.value else [],
      IntOr(reply.total, 0),
      StringOr(reply.platform, ""))
  }

  /** Normalising twice is normalising once: a stored result, read back as a
      reply, is already normal. */
  lemma NormaliseIdempotent(reply: SearchReply)
    ensures var r := Normalise(reply);
            Normalise(SearchReply(r.id, Some(r.accounts), Some(r.total), Some(r.platform))) == r
  {
  }

  /** The result a finished search stores: the normalised reply of an OK
      response whose body could be read, and the empty result otherwise. */
  function Outcome(response: SearchResponse): (r: SearchResult)
    ensures response.SearchResponded? && response.ok && response.body.Some? ==>
              r == Normalise(response.body.value)
    ensures !(response.SearchResponded? && response.ok && response.body.Some?) ==>
              r == EmptyResult
  {
    match response
    case SearchThrew => EmptyResult
    case SearchResponded(ok, body) =>
      if ok && body.Some? then Normalise(body.value) else EmptyResult
  }

  /** Failure is silent: a thrown error, a non-OK status and an unreadable
      body all store exactly what an OK reply with no accounts, a zero total
      and no id or platform stores. */
  lemma SilentFailure(body: Option<SearchReply>)
    ensures Outcome(SearchThrew) == Outcome(SearchResponded(false, body))
    ensures Outcome(SearchThrew) == Outcome(SearchResponded(true, None))
    ensures Outcome(SearchThrew) == Normalise(SearchReply(None, Some([]), Some(0), None))
    ensures Outcome(SearchThrew) == Normalise(SearchReply(Some(0), None, None, Some("")))
  {
  }

  /** The page's state cells. */
  class SearchPage {
    var filters: FilterState
    var searchResult: Option<SearchResult>
    var isSearching: bool
    /** Searches begun whose call has not come back yet. */
    var pendingSearches: nat

    /** The initial filters, no result, not searching. */
    constructor ()
      ensures filters == InitialFilters
      ensures searchResult.None? && !isSearching && pendingSearches == 0
    {
      filters := InitialFilters;
      searchResult := None;
      isSearching := false;
      pendingSearches := 0;
    }

    /** The first part of `handleSearch`: sets the searching flag, clears the
        result and sends the request body built from the current filters. */
    method BeginSearch() returns (request: SearchRequest)
      modifies this
      ensures request == RequestBody(filters)
      ensures isSearching && searchResult.None?
      ensures pendingSearches == old(pendingSearches) + 1
      ensures filters == old(filters)
    {
      isSearching := true;
      searchResult := None;
      request := RequestBody(filters);
      pendingSearches := pendingSearches + 1;
    }

    /** The rest of `handleSearch`, once the call has produced `response`:
        stores the outcome (the empty result on any failure) and, in the
        `finally` block, clears the searching flag. */
    method FinishSearch(response: SearchResponse)
      requires pendingSearches > 0
      modifies this
      ensures searchResult == Some(Outcome(response))
      ensures !isSearching
      ensures pendingSearches == old(pendingSearches) - 1
      ensures filters == old(filters)
    {
      match response {
        case SearchThrew =>
          searchResult := Some(EmptyResult);
        case SearchResponded(ok, body) =>
          if ok && body.Some? {
            searchResult := Some(Normalise(body.value));
          } else {
            searchResult := Some(EmptyResult);
          }
      }
      isSearching := false;
      pendingSearches := pendingSearches - 1;
    }

    /** The panel's `onFiltersChange`: takes the new filters and drops the
        current result. */
    method OnFiltersChange(f: FilterState)
      modifies this
      ensures filters == f && searchResult.None?
      ensures isSearching == old(isSearching) && pendingSearches == old(pendingSearches)
    {
      filters := f;
      searchResult := None;
    }

    /** The results section is shown iff there is a result or a search runs:
        a search in progress always shows it, and it disappears only when
        there is neither. */
    predicate ShowsResults()
      reads this
      ensures isSearching ==> ShowsResults()
      ensures !ShowsResults() <==> searchResult.None? && !isSearching
    {
      searchResult.Some? || isSearching
    }

    /** The "how it works" section is shown iff neither holds; so exactly one
        of the two sections is shown. */
    predicate ShowsHowItWorks()
      reads this
      ensures ShowsHowItWorks() <==> !ShowsResults()
    {
      searchResult.None? && !isSearching
    }

    /** What the results section renders. The page passes the props `result`
        and `isLoading`; the component declares `results`, `totalCount` and
        `isLoading`, so `result` is ignored and the other two take their
        defaults. */
    function ResultsSection(): (v: Option<SearchResults.ResultsView>)
      reads this
      ensures v.Some? <==> ShowsResults()
      ensures v.Some? ==> (v.value.Spinner? <==> isSearching)
      ensures v.Some? && !isSearching ==>
                v.value == SearchResults.Listing(SearchResults.MockInfluencers, 11212, 11207)
    {
      if ShowsResults() then Some(SearchResults.Render(None, None, Some(isSearching))) else None
    }
  }

  /** A client run: a search whose call fails leaves the page showing the
      results section with the empty result stored, not searching any more. */
  method FailedSearchScenario() returns (page: SearchPage)
    ensures page.searchResult == Some(EmptyResult)
    ensures page.ShowsResults() && !page.ShowsHowItWorks()
  {
    page := new SearchPage();
    var request := page.BeginSearch();
    assert request.avgViews == Some(2500) && request.size == "micro";
    page.FinishSearch(SearchThrew);
  }
}

=== FILE: influencer_filters.dfy ===
/** The filter panel. The filter record itself belongs to the page; the panel
    receives it as a prop and reports every change as a complete new record
    (`onFiltersChange`). The panel's own state is whether the location and
    category lists are open and the text of the category search box. */
module InfluencerFilters {
  import opened JsValues

  /** The search criteria. The two sliders report arrays of numbers; only their
      first element is ever read. */
  datatype FilterState = FilterState(
    platform: string,
    size: string,
    location: string,
    category: string,
    avgViews: seq<int>,
    er: seq<real>)

  /** The names `updateFilter` is called with. */
  datatype FilterKey = Platform | Size | Location | Category | AvgViews | Er

  /** A value stored under a key: text for the four choice fields, the slider
      arrays for the two thresholds. */
  datatype FilterValue = Text(text: string) | Views(views: seq<int>) | Rates(rates: seq<real>)

  /** The value a key names in a record. */
  function Get(f: FilterState, key: FilterKey): FilterValue {
    match key
    case Platform => Text(f.platform)
    case Size => Text(f.size)
    case Location => Text(f.location)
    case Category => Text(f.category)
    case AvgViews => Views(f.avgViews)
    case Er => Rates(f.er)
  }

  /** Whether a value has the shape of the field it is stored under: every call
      of `updateFilter` in the panel passes a string for the four choice
      fields and the slider's array for the two thresholds. */
  predicate Fits(key: FilterKey, v: FilterValue) {
    match key
    case AvgViews => v.Views?
    case Er => v.Rates?
    case _ => v.Text?
  }

  /** `updateFilter(key, value)`: `{ ...filters, [key]: value }`. The emitted
      record holds `value` under `key` and agrees with `f` everywhere else. */
  function UpdateFilter(f: FilterState, key: FilterKey, v: FilterValue): (r: FilterState)
    requires Fits(key, v)
    ensures Get(r, key) == v
    ensures forall other :: other != key ==> Get(r, other) == Get(f, other)
  {
    match key
    case Platform => f.(platform := v.text)
    case Size => f.(size := v.text)
    case Location => f.(location := v.text)
    case Category => f.(category := v.text)
    case AvgViews => f.(avgViews := v.views)
    case Er => f.(er := v.rates)
  }

  /** A record is determined by what its six keys hold. */
  lemma {:induction false} SameKeysSameRecord(f: FilterState, g: FilterState)
    requires forall key :: Get(f, key) == Get(g, key)
    ensures f == g
  {
    assert Get(f, Platform) == Get(g, Platform) && Get(f, Size) == Get(g, Size);
    assert Get(f, Location) == Get(g, Location) && Get(f, Category) == Get(g, Category);
    assert Get(f, AvgViews) == Get(g, AvgViews) && Get(f, Er) == Get(g, Er);
  }

  /** Storing the value a key already holds changes nothing, and of two updates
      of the same key only the second one is seen. */
  lemma UpdateFilterLaws(f: FilterState, key: FilterKey, v: FilterValue, w: FilterValue)
    requires Fits(key, v) && Fits(key, w)
    ensures Fits(key, Get(f, key)) && UpdateFilter(f, key, Get(f, key)) == f
    ensures UpdateFilter(UpdateFilter(f, key, v), key, w) == UpdateFilter(f, key, w)
  {
    var same := UpdateFilter(f, key, Get(f, key));
    SameKeysSameRecord(same, f);
    var twice := UpdateFilter(UpdateFilter(f, key, v), key, w);
    SameKeysSameRecord(twice, UpdateFilter(f, key, w));
  }

  /** The search button is enabled iff a platform is chosen and the category
      is not empty: it reads the platform and category keys and no other. */
  predicate SearchEnabled(f: FilterState)
    ensures SearchEnabled(f) <==> Get(f, Platform) != Text("") && Get(f, Category) != Text("")
  {
    f.platform != "" && f.category != ""
  }

  /** Changing the size, location or a threshold never enables or disables the
      search button; only platform and category do. */
  lemma SearchEnabledIgnoresOtherKeys(f: FilterState, key: FilterKey, v: FilterValue)
    requires Fits(key, v) && key != Platform && key != Category
    ensures SearchEnabled(UpdateFilter(f, key, v)) == SearchEnabled(f)
  {
    assert Get(UpdateFilter(f, key, v), Platform) == Get(f, Platform);
    assert Get(UpdateFilter(f, key, v), Category) == Get(f, Category);
  }

  /** The location a country choice stores: picking the country already chosen
      clears the location, picking any other chooses it. */
  function ToggledLocation(current: string, picked: string): (r: string)
    ensures picked == current ==> r == ""
    ensures picked != current ==> r == picked
  {
    if picked == current then "" else picked
  }

  /** Picking the same country twice, starting from no choice, ends with no
      choice again. */
  lemma ToggleTwiceFromNothing(picked: string)
    ensures ToggledLocation(ToggledLocation("", picked), picked) == ""
  {
  }

  /** One entry of the country list: the stored value and the shown label. */
  datatype Country = Country(value: string, display: string)

  const Countries: seq<Country> := [
    Country("us", "🇺🇸 United States"),
    Country("uk", "🇬🇧 United Kingdom"),
    Country("de", "🇩🇪 Germany"),
    Country("fr", "🇫🇷 France"),
    Country("br", "🇧🇷 Brazil"),
    Country("ca", "🇨🇦 Canada"),
    Country("au", "🇦🇺 Australia"),
    Country("es", "🇪🇸 Spain"),
    Country("it", "🇮🇹 Italy"),
    Country("jp", "🇯🇵 Japan"),
    Country("kr", "🇰🇷 South Korea"),
    Country("in", "🇮🇳 India"),
    Country("mx", "🇲🇽 Mexico"),
    Country("nl", "🇳🇱 Netherlands"),
    Country("se", "🇸🇪 Sweden"),
    Country("no", "🇳🇴 Norway"),
    Country("dk", "🇩🇰 Denmark"),
    Country("fi", "🇫🇮 Finland"),
    Country("ch", "🇨🇭 Switzerland"),
    Country("at", "🇦🇹 Austria")
  ]

  /** The category suggestions. */
  const Categories: seq<string> := [
    "Fashion", "Beauty", "Lifestyle", "Fitness & Health", "Food & Cooking",
    "Travel", "Technology", "Gaming", "Music", "Art & Design", "Business",
    "Education", "Sports", "Entertainment", "Photography", "DIY & Crafts",
    "Parenting", "Pets & Animals", "Home & Decor", "Automotive"
  ]

  /** `countries.find(c => c.value === v)?.label`: the label of the first
      entry whose value is `v`, or None (`undefined`) when no entry has it. */
  function FindLabel(table: seq<Country>, v: string): (r: Option<string>)
    ensures r.None? <==> forall k :: 0 <= k < |table| ==> table[k].value != v
    ensures r.Some? ==> exists k :: 0 <= k < |table| && FirstWithValue(table, v, k) && r.value == table[k].display
  {
    if table == [] then None
    else if table[0].value == v then (assert FirstWithValue(table, v, 0); Some(table[0].display))
    else
      var r := FindLabel(table[1..], v);
      if r.Some? then
        var k :| 0 <= k < |table[1..]| && FirstWithValue(table[1..], v, k) && r.value == table[1..][k].display;
        assert FirstWithValue(table, v, k + 1);
        r
      else r
  }

  /** Entry `k` is the first entry of `table` whose value is `v`. */
  predicate FirstWithValue(table: seq<Country>, v: string, k: nat)
    requires k < |table|
  {
    table[k].value == v && forall i :: 0 <= i < k ==> table[i].value != v
  }

  /** The text of the location button: the placeholder while no location is
      chosen, else the label of the table entry holding the location (None:
      nothing is shown, for a value outside the table). */
  function LocationButtonText(location: string): (r: Option<string>)
    ensures location == "" ==> r == Some("Select country...")
    ensures location != "" && r.Some? ==>
      exists k :: 0 <= k < |Countries| && FirstWithValue(Countries, location, k) && r.value == Countries[k].display
    ensures location != "" ==> (r.None? <==> forall k :: 0 <= k < |Countries| ==> Countries[k].value != location)
  {
    if location == "" then Some("Select country...") else FindLabel(Countries, location)
  }

  /** The panel's own state. */
  class FilterPanel {
    var locationOpen: bool
    var categoryOpen: bool
    var searchCategory: string

    /** Both lists closed, empty search text. */
    constructor ()
      ensures !locationOpen && !categoryOpen && searchCategory == ""
    {
      locationOpen, categoryOpen, searchCategory := false, false, "";
    }

    /** `handleCategoryInputChange`: reports the typed category, opens the list
        when the value is not empty (never closes it), and copies the value
        into the search text. */
    method CategoryInputChange(filters: FilterState, value: string) returns (emitted: FilterState)
      modifies this
      ensures emitted == UpdateFilter(filters, Category, Text(value))
      ensures categoryOpen == (old(categoryOpen) || |value| > 0)
      ensures searchCategory == value
      ensures locationOpen == old(locationOpen)
    {
      emitted := UpdateFilter(filters, Category, Text(value));
      if |value| > 0 {
        categoryOpen := true;
      }
      searchCategory := value;
    }

    /** `handleCategorySelect`: reports the picked category, closes the list
        and clears the search text. */
    method CategorySelect(filters: FilterState, category: string) returns (emitted: FilterState)
      modifies this
      ensures emitted == UpdateFilter(filters, Category, Text(category))
      ensures !categoryOpen && searchCategory == ""
      ensures locationOpen == old(locationOpen)
    {
      emitted := UpdateFilter(filters, Category, Text(category));
      categoryOpen := false;
      searchCategory := "";
    }

    /** A click into the category input opens the list. */
    method CategoryInputClick()
      modifies this
      ensures categoryOpen
      ensures searchCategory == old(searchCategory) && locationOpen == old(locationOpen)
    {
      categoryOpen := true;
    }

    /** The category popover opening or closing by itself: sets the flag and
        clears the search text either way. */
    method CategoryOpenChange(open: bool)
      modifies this
      ensures categoryOpen == open && searchCategory == ""
      ensures locationOpen == old(locationOpen)
    {
      categoryOpen := open;
      searchCategory := "";
    }

    /** The location popover opening or closing by itself. */
    method LocationOpenChange(open: bool)
      modifies this
      ensures locationOpen == open
      ensures categoryOpen == old(categoryOpen) && searchCategory == old(searchCategory)
    {
      locationOpen := open;
    }

    /** A country picked from the list: reports the toggled location and closes
        the location list. */
    method LocationSelect(filters: FilterState, picked: string) returns (emitted: FilterState)
      modifies this
      ensures emitted == UpdateFilter(filters, Location, Text(ToggledLocation(filters.location, picked)))
      ensures !locationOpen
      ensures categoryOpen == old(categoryOpen) && searchCategory == old(searchCategory)
    {
      emitted := UpdateFilter(filters, Location, Text(ToggledLocation(filters.location, picked)));
      locationOpen := false;
    }
  }

  /** A client run: picking any entry of the category list, once a platform
      is chosen, stores that category, closes the list and enables the search
      button. */
  method PickListedCategoryScenario(filters: FilterState, k: nat) returns (panel: FilterPanel, emitted: FilterState)
    requires k < |Categories| && filters.platform != ""
    ensures Get(emitted, Category) == Text(Categories[k])
    ensures SearchEnabled(emitted)
    ensures !panel.categoryOpen && panel.searchCategory == ""
  {
    panel := new FilterPanel();
    emitted := panel.CategorySelect(filters, Categories[k]);
  }
}

=== FILE: js_values.dfy ===
/** The few JavaScript runtime behaviours that the pages' decision rules rely on:
    optional JSON fields, the `\s` character class of regular expressions,
    ASCII upper-casing, and the decimal rendering of an integer by
    `Number.prototype.toString`, with its inverse. */
module JsValues {

  /** A value that may be absent: a missing or `null` JSON field, `undefined`,
      or a `parseInt` result that is `NaN`. */
  datatype Option<T> = None | Some(value: T)

  /** `x || d` for a string-valued field: `d` when `x` is missing or "". */
  function StringOr(x: Option<string>, d: string): string {
    if x.Some? && x.value != "" then x.value else d
  }

  /** `x || d` for a number-valued field: `d` when `x` is missing or 0. */
  function IntOr(x: Option<int>, d: int): int {
    if x.Some? && x.value != 0 then x.value else d
  }

  /** Membership in the `\s` class of JavaScript regular expressions: the
      WhiteSpace and LineTerminator code points of ECMAScript (tab, line feed,
      vertical tab, form feed, carriage return, space, no-break space, the
      Unicode space separators, line and paragraph separator, byte order mark). */
  predicate IsSpace(c: char) {
    || c == '\t' || c == '\n' || c == '\U{000B}' || c == '\U{000C}' || c == '\r'
    || c == ' ' || c == '\U{00A0}' || c == '\U{1680}'
    || ('\U{2000}' <= c <= '\U{200A}')
    || c == '\U{2028}' || c == '\U{2029}' || c == '\U{202F}' || c == '\U{205F}'
    || c == '\U{3000}' || c == '\U{FEFF}'
  }

  /** No character of `s` is in `\s`. */
  predicate NoSpace(s: string) {
    forall k :: 0 <= k < |s| ==> !IsSpace(s[k])
  }

  /** The first index of `c` in `s`, or |s| when `c` does not occur
      (`String.prototype.indexOf`, with |s| standing for -1). */
  function FirstIndexOf(s: string, c: char): (r: nat)
    ensures r <= |s|
    ensures r < |s| ==> s[r] == c
    ensures forall k :: 0 <= k < r ==> s[k] != c
  {
    if s == [] || s[0] == c then 0 else 1 + FirstIndexOf(s[1..], c)
  }

  /** `toUpperCase` on one character, restricted to the ASCII letters. */
  function AsciiUpper(c: char): (u: char)
    ensures 'a' <= c <= 'z' ==> 'A' <= u <= 'Z' && u as int == c as int - 32
    ensures !('a' <= c <= 'z') ==> u == c
  {
    if 'a' <= c <= 'z' then (c as int - 32) as char else c
  }

  predicate IsDigit(c: char) {
    '0' <= c <= '9'
  }

  predicate AllDigits(s: string) {
    forall k :: 0 <= k < |s| ==> IsDigit(s[k])
  }

  function DigitChar(d: nat): (c: char)
    requires d < 10
    ensures IsDigit(c)
  {
    ('0' as int + d) as char
  }

  function DigitValue(c: char): nat
    requires IsDigit(c)
  {
    c as int - '0' as int
  }

  /** The decimal digits of a natural number, most significant first, with no
      leading zero. */
  function Digits(n: nat): (s: string)
    ensures |s| > 0 && AllDigits(s)
    ensures |s| > 1 ==> s[0] != '0'
    decreases n
  {
    if n < 10 then [DigitChar(n)] else Digits(n / 10) + [DigitChar(n % 10)]
  }

  /** The number a non-empty string of decimal digits denotes. */
  function DigitsValue(s: string): nat
    requires AllDigits(s)
  {
    if s == [] then 0 else DigitsValue(s[..|s| - 1]) * 10 + DigitValue(s[|s| - 1])
  }

  /** `n.toString()` for an integer `n` with |n| < 10^21: a minus sign for
      negatives, then the digits. From 10^21 on JavaScript switches to
      exponent form ("1e+21"), which this function does not produce. */
  function DecimalString(n: int): string {
    if n < 0 then "-" + Digits(-n) else Digits(n)
  }

  /** Reads back a string of the form DecimalString produces. */
  function ParseDecimal(s: string): Option<int> {
    if |s| > 1 && s[0] == '-' && AllDigits(s[1..]) then Some(0 - DigitsValue(s[1..]) as int)
    else if |s| > 0 && AllDigits(s) then Some(DigitsValue(s))
    else None
  }

  lemma {:induction false} DigitsRoundTrip(n: nat)
    ensures DigitsValue(Digits(n)) == n
    decreases n
  {
    if n >= 10 {
      var s := Digits(n);
      assert s[..|s| - 1] == Digits(n / 10);
      DigitsRoundTrip(n / 10);
    }
  }

  /** Reading back the decimal rendering of an integer gives the integer. */
  lemma DecimalRoundTrip(n: int)
    ensures ParseDecimal(DecimalString(n)) == Some(n)
  {
    if n < 0 {
      var s := DecimalString(n);
      assert s[1..] == Digits(-n);
      DigitsRoundTrip(-n);
    } else {
      DigitsRoundTrip(n);
    }
  }

  /** Different integers render differently. */
  lemma DecimalInjective(m: int, n: int)
    requires DecimalString(m) == DecimalString(n)
    ensures m == n
  {
    DecimalRoundTrip(m);
    DecimalRoundTrip(n);
  }
}

=== FILE: offer_page.dfy ===
/** The offer page: loading a stored offer and a fresh sample search for it,
    the free-package request with its email check and its outcome, and the
    labels of the offer's previous packages. Network calls are not modelled:
    each is replaced by what it produced, given as an input. */
module OfferPage {
  import opened JsValues
  import IndexPage
  import SearchResults

  // ----- The email check -----

  /** A character of the class `[^\s@]`. */
  predicate Plain(c: char) {
    !IsSpace(c) && c != '@'
  }

  /** Every character of `s` from index `lo` up to (not including) `hi` is plain. */
  predicate PlainRun(s: string, lo: int, hi: int)
    requires 0 <= lo <= hi <= |s|
  {
    forall k :: lo <= k < hi ==> Plain(s[k])
  }

  /** The language of `/^[^\s@]+@[^\s@]+\.[^\s@]+$/`: a non-empty run of plain
      characters, '@', a non-empty run, '.', a non-empty run, and nothing
      else. The '.' may be any one that has a plain run on both sides. */
  ghost predicate MatchesEmailPattern(s: string) {
    exists i, j ::
      0 < i && i + 1 < j && j + 1 < |s| && s[i] == '@' && s[j] == '.' &&
      PlainRun(s, 0, i) && PlainRun(s, i + 1, j) && PlainRun(s, j + 1, |s|)
  }

  /** Some '.' lies strictly inside `s` between index `lo` and the last index. */
  predicate HasInnerDot(s: string, lo: int)
    requires 0 <= lo
  {
    exists k | lo < k < |s| - 1 :: s[k] == '.'
  }

  /** `isValidEmail`, decided by one search for '@': the part before the first
      '@' is a non-empty plain run, and the rest is a plain run (so it holds no
      second '@' and no space) with an inner '.'. An accepted address has at
      least five characters and starts and ends with a plain one. */
  function IsValidEmail(s: string): (r: bool)
    ensures r ==> |s| >= 5 && Plain(s[0]) && Plain(s[|s| - 1])
  {
    var at := FirstIndexOf(s, '@');
    0 < at < |s| && PlainRun(s, 0, at) && PlainRun(s, at + 1, |s|) && HasInnerDot(s, at + 1)
  }

  /** An '@' with only plain characters before it is the first '@'. */
  lemma FirstAt(s: string, i: int)
    requires 0 <= i < |s| && s[i] == '@' && PlainRun(s, 0, i)
    ensures FirstIndexOf(s, '@') == i
  {
  }

  /** The check accepts exactly the strings of the anchored pattern. */
  lemma IsValidEmailIsPattern(s: string)
    ensures IsValidEmail(s) <==> MatchesEmailPattern(s)
  {
    if MatchesEmailPattern(s) {
      var i, j :| 0 < i && i + 1 < j && j + 1 < |s| && s[i] == '@' && s[j] == '.' &&
                  PlainRun(s, 0, i) && PlainRun(s, i + 1, j) && PlainRun(s, j + 1, |s|);
      FirstAt(s, i);
      assert Plain(s[j]);
      assert PlainRun(s, i + 1, |s|);
      assert HasInnerDot(s, i + 1);
    }
    if IsValidEmail(s) {
      var i := FirstIndexOf(s, '@');
      var j :| i + 1 < j < |s| - 1 && s[j] == '.';
      assert PlainRun(s, i + 1, j) && PlainRun(s, j + 1, |s|);
    }
  }

  /** The same language in words: one '@' preceded by a non-empty local part,
      no space anywhere, and a '.' strictly inside the domain. */
  lemma IsValidEmailCharacterised(s: string)
    ensures IsValidEmail(s) <==>
      exists i :: 0 < i < |s| && s[i] == '@' && NoSpace(s) &&
        (forall k :: 0 <= k < |s| && k != i ==> s[k] != '@') && HasInnerDot(s, i + 1)
  {
    if IsValidEmail(s) {
      var i := FirstIndexOf(s, '@');
      assert forall k :: 0 <= k < |s| && k != i ==> Plain(s[k]);
      assert NoSpace(s);
    }
    if exists i :: 0 < i < |s| && s[i] == '@' && NoSpace(s) &&
        (forall k :: 0 <= k < |s| && k != i ==> s[k] != '@') && HasInnerDot(s, i + 1) {
      var i :| 0 < i < |s| && s[i] == '@' && NoSpace(s) &&
        (forall k :: 0 <= k < |s| && k != i ==> s[k] != '@') && HasInnerDot(s, i + 1);
      assert PlainRun(s, 0, i);
      FirstAt(s, i);
      assert PlainRun(s, i + 1, |s|);
    }
  }

  /** A domain without a dot is refused, one with a dot is accepted. */
  lemma IsValidEmailExamples()
    ensures !IsValidEmail("foo@bar") && IsValidEmail("foo@bar.com")
  {
    FirstAt("foo@bar", 3);
    FirstAt("foo@bar.com", 3);
    assert "foo@bar.com"[7] == '.';
  }

  // ----- The free-package request -----

  /** The request outcome shown to the user. */
  datatype SubmissionState = Idle | Success | Error

  /** The decoded reply of the trial webhook: whether `data.success` is truthy,
      and `data.error` (None when missing or null). */
  datatype TrialReply = TrialReply(success: bool, error: Option<string>)

  /** What the trial call produced: a thrown error, or a response with its
      `ok` flag and its body, None when `response.json()` throws. */
  datatype TrialResponse =
    | TrialThrew
    | TrialResponded(ok: bool, body: Option<TrialReply>)

  /** The JSON body sent: the email and `parseInt(id)` (None: NaN, sent as
      null). */
  datatype TrialRequest = TrialRequest(email: string, offerId: Option<int>)

  const GenericError: string := "An error occurred while processing your request"
  const NetworkError: string := "Network error. Please try again."

  /** A request is sent only for a non-empty valid email and a route id. */
  predicate FreePackageGuard(email: string, id: Option<string>)
    ensures FreePackageGuard(email, id) ==> IsValidEmail(email) && id.Some? && id.value != ""
    ensures email == "" ==> !FreePackageGuard(email, id)
  {
    email != "" && IsValidEmail(email) && id.Some? && id.value != ""
  }

  /** How a finished request ends: the new submission state and the error
      message written (None: the message is left as it was). */
  datatype TrialOutcome = TrialOutcome(state: SubmissionState, message: Option<string>)

  /** The outcome of a request: success iff the response is OK and its body
      reads with a truthy `success`; a thrown error, including an unreadable
      body, gives the network message; any other failure gives `data.error`
      or the generic message. */
  function FreePackageOutcome(response: TrialResponse): (r: TrialOutcome)
    ensures r.state != Idle
    ensures r.state == Success <==>
              response.TrialResponded? && response.ok && response.body.Some? && response.body.value.success
    ensures r.state == Success ==> r.message.None?
    ensures response.TrialThrew? || response.body.None? ==> r == TrialOutcome(Error, Some(NetworkError))
    ensures response.TrialResponded? && response.body.Some? && r.state == Error ==>
              r.message == Some(StringOr(response.body.value.error, GenericError))
  {
    match response
    case TrialThrew => TrialOutcome(Error, Some(NetworkError))
    case TrialResponded(ok, body) =>
      if body.None? then TrialOutcome(Error, Some(NetworkError))
      else if ok && body.value.success then TrialOutcome(Success, None)
      else TrialOutcome(Error, Some(StringOr(body.value.error, GenericError)))
  }

  /** A failed request always leaves a non-empty message: the server's, the
      generic one or the network one. */
  lemma ErrorMessageNeverEmpty(response: TrialResponse)
    ensures FreePackageOutcome(response).state == Error ==>
              FreePackageOutcome(response).message.Some? && FreePackageOutcome(response).message.value != ""
  {
  }

  // ----- The stored offer -----

  /** The filters stored with an offer; the thresholds are single numbers here. */
  datatype OfferFilters = OfferFilters(
    platform: string, size: string, location: string, category: string, avgViews: int, er: real)

  /** One previously bought or requested package. */
  datatype PackageRecord = PackageRecord(
    id: int, offerId: int, email: string, packageType: string, platform: string,
    limit: int, advancedData: bool, status: string)

  /** An offer as the offer webhook returns it (dates and metadata left out). */
  datatype Offer = Offer(
    id: int, filters: OfferFilters, total: int, packages: seq<PackageRecord>,
    freePackageUsed: bool, packagesTotal: int)

  /** What the offer call produced: a thrown error, or a response with its `ok`
      flag and its body, None when `response.json()` throws. */
  datatype OfferResponse =
    | OfferThrew
    | OfferResponded(ok: bool, body: Option<Offer>)

  /** The search body sent for the sample influencers: the stored filters as
      they are. */
  function SampleSearchBody(f: OfferFilters): (b: IndexPage.SearchRequest)
    ensures b.platform == f.platform && b.size == f.size && b.location == f.location
    ensures b.category == f.category && b.avgViews == Some(f.avgViews) && b.er == Some(f.er)
  {
    IndexPage.SearchRequest(f.platform, f.size, f.location, f.category, Some(f.avgViews), Some(f.er))
  }

  /** The sample search's reply, as this page stores it: `id` as it came,
      missing accounts as [], a falsy total as 0 and a falsy platform as the
      offer's own platform. */
  function NormaliseSample(reply: IndexPage.SearchReply, offerPlatform: string): (r: IndexPage.SearchResult)
    ensures r.id == reply.id
    ensures r.accounts == if reply.accounts.Some? then reply.accounts.value else []
    ensures r.total == IntOr(reply.total, 0)
    ensures r.platform == StringOr(reply.platform, offerPlatform)
  {
    IndexPage.SearchResult(
      reply.id,
      if reply.accounts.Some? then reply.accounts.value else [],
      IntOr(reply.total, 0),
      StringOr(reply.platform, offerPlatform))
  }

  /** The two pages normalise a reply alike except in two places: this page
      keeps an id of 0 where the search page drops it, and falls back to the
      offer's platform where the search page falls back to "". */
  lemma SampleAgreesWithSearchPage(reply: IndexPage.SearchReply, offerPlatform: string)
    ensures var mine, theirs := NormaliseSample(reply, offerPlatform), IndexPage.Normalise(reply);
      && mine.accounts == theirs.accounts
      && mine.total == theirs.total
      && (mine.id == theirs.id <==> reply.id != Some(0))
      && (mine.platform == theirs.platform <==> offerPlatform == "" || theirs.platform != "")
  {
  }

  /** More packages are needed while the offer matched more influencers than
      its packages have delivered. The page computes this flag and never
      shows it, so it is not part of `PageView`. */
  predicate NeedsMorePackages(offer: Offer)
    ensures NeedsMorePackages(offer) <==> offer.total - offer.packagesTotal >= 1
  {
    offer.total > offer.packagesTotal
  }


  // ----- Package labels -----

  const PackageTypeLabels: map<string, string> := map[
    "free" := "Free Trial",
    "professional" := "Professional",
    "starter" := "Starter",
    "enterprise" := "Enterprise",
    "custom" := "Custom"
  ]

  /** `getPackageTypeLabel`: the label of a known type; any other type is shown
      as it is. */
  function PackageTypeLabel(packageType: string): (r: string)
    ensures packageType in PackageTypeLabels ==> r == PackageTypeLabels[packageType]
    ensures r == packageType <==> packageType !in PackageTypeLabels
  {
    if packageType in PackageTypeLabels && PackageTypeLabels[packageType] != "" then
      PackageTypeLabels[packageType]
    else packageType
  }

  /** The badge styles. */
  datatype BadgeVariant = DefaultBadge | SecondaryBadge | DestructiveBadge

  const StatusVariants: map<string, BadgeVariant> := map[
    "sent" := DefaultBadge,
    "pending" := SecondaryBadge,
    "completed" := DefaultBadge,
    "failed" := DestructiveBadge
  ]

  /** `status.charAt(0).toUpperCase() + status.slice(1)`, upper-casing ASCII
      letters only. */
  function Capitalise(s: string): (r: string)
    ensures |r| == |s|
    ensures |s| > 0 ==> r[0] == AsciiUpper(s[0]) && r[1..] == s[1..]
  {
    if s == "" then "" else [AsciiUpper(s[0])] + s[1..]
  }

  /** Capitalising twice is capitalising once. */
  lemma CapitaliseIdempotent(s: string)
    ensures Capitalise(Capitalise(s)) == Capitalise(s)
  {
    if s != "" {
      assert Capitalise(s)[1..] == s[1..];
    }
  }

  /** A status badge: its variant and its text. */
  datatype Badge = Badge(variant: BadgeVariant, text: string)

  /** `getStatusBadge`: sent and completed give the default badge, pending the
      secondary one, failed the destructive one, and any other status the
      secondary one; the text is the capitalised status. */
  function StatusBadge(status: string): (b: Badge)
    ensures b.variant == DefaultBadge <==> status == "sent" || status == "completed"
    ensures b.variant == DestructiveBadge <==> status == "failed"
    ensures b.variant == SecondaryBadge <==> status != "sent" && status != "completed" && status != "failed"
    ensures b.text == Capitalise(status)
  {
    Badge(if status in StatusVariants then StatusVariants[status] else SecondaryBadge, Capitalise(status))
  }

  /** One row of the "Your Packages" list: the type label and the status badge. */
  datatype PackageRow = PackageRow(typeLabel: string, badge: Badge)

  /** The rows of the "Your Packages" list, one per package in order. */
  function PackageRows(packages: seq<PackageRecord>): (rows: seq<PackageRow>)
    ensures |rows| == |packages|
    ensures forall k :: 0 <= k < |rows| ==>
              rows[k] == PackageRow(PackageTypeLabel(packages[k].packageType), StatusBadge(packages[k].status))
  {
    if packages == [] then []
    else [PackageRow(PackageTypeLabel(packages[0].packageType), StatusBadge(packages[0].status))]
         + PackageRows(packages[1..])
  }

  /** What the page renders: skeletons, the "not found" card, or the details
      with the sample-influencer section and the package rows (None: the
      package card is hidden because there are no packages). The details
      hold no "needs more packages" flag: the page computes one and never
      reads it. */
  datatype PageView =
    | Skeleton
    | NotFound
    | Details(offer: Offer, samples: SearchResults.ResultsView,
              packageRows: Option<seq<PackageRow>>)

  // ----- The page's state -----

  class OfferView {
    /** The `id` route parameter (None when it is missing). */
    const id: Option<string>
    var offer: Option<Offer>
    var searchResult: Option<IndexPage.SearchResult>
    var isLoading: bool
    var isLoadingInfluencers: bool
    var email: string
    var isSubmitting: bool
    var submissionState: SubmissionState
    var errorMessage: string
    /** Whether `window.location.reload()` was called. */
    var reloadRequested: bool
    /** Free-package requests sent whose call has not come back yet. */
    var pendingRequests: nat

    /** The initial state: loading, nothing loaded, no request made. */
    constructor (id: Option<string>)
      ensures this.id == id
      ensures offer.None? && searchResult.None? && isLoading && !isLoadingInfluencers
      ensures email == "" && !isSubmitting && submissionState == Idle && errorMessage == ""
      ensures !reloadRequested && pendingRequests == 0
    {
      this.id := id;
      offer, searchResult := None, None;
      isLoading, isLoadingInfluencers := true, false;
      email, isSubmitting, submissionState, errorMessage := "", false, Idle, "";
      reloadRequested, pendingRequests := false, 0;
    }

    /** The page: a skeleton while loading, "not found" when no offer was
        loaded, else the details. The sample section is the preview component
        given `result` and `isLoading`; it declares no `result` prop, so it
        lists its default rows and total. */
    function View(): (v: PageView)
      reads this
      ensures v.Skeleton? <==> isLoading
      ensures v.NotFound? <==> !isLoading && offer.None?
      ensures v.Details? ==>
        && offer == Some(v.offer)
        && v.samples == SearchResults.Render(None, None, Some(isLoadingInfluencers))
        && v.packageRows == (if |v.offer.packages| > 0 then Some(PackageRows(v.offer.packages)) else None)
    {
      if isLoading then Skeleton
      else if offer.None? then NotFound
      else
        var o := offer.value;
        Details(o, SearchResults.Render(None, None, Some(isLoadingInfluencers)),
                if |o.packages| > 0 then Some(PackageRows(o.packages)) else None)
    }

    /** The `email` state setter. */
    method SetEmail(value: string)
      modifies this
      ensures email == value
      ensures isSubmitting == old(isSubmitting) && submissionState == old(submissionState)
      ensures errorMessage == old(errorMessage) && pendingRequests == old(pendingRequests)
      ensures offer == old(offer) && searchResult == old(searchResult) && isLoading == old(isLoading)
      ensures reloadRequested == old(reloadRequested) && isLoadingInfluencers == old(isLoadingInfluencers)
    {
      email := value;
    }

    /** The first part of `handleFreePackageRequest`, up to the `await`, with
        `parsedId` the value of `parseInt(id)`: without a non-empty valid
        email and an id nothing is sent and nothing changes; otherwise the
        page marks itself submitting, resets the state to idle and sends the
        request. */
    method BeginFreePackageRequest(parsedId: Option<int>) returns (request: Option<TrialRequest>)
      modifies this
      ensures request.Some? <==> FreePackageGuard(email, id)
      ensures request.None? ==>
        isSubmitting == old(isSubmitting) && submissionState == old(submissionState) &&
        pendingRequests == old(pendingRequests)
      ensures request.Some? ==>
        request.value == TrialRequest(email, parsedId) &&
        isSubmitting && submissionState == Idle && pendingRequests == old(pendingRequests) + 1
      ensures email == old(email) && errorMessage == old(errorMessage)
      ensures offer == old(offer) && searchResult == old(searchResult) && isLoading == old(isLoading)
      ensures reloadRequested == old(reloadRequested) && isLoadingInfluencers == old(isLoadingInfluencers)
    {
      if !FreePackageGuard(email, id) {
        return None;
      }
      isSubmitting := true;
      submissionState := Idle;
      pendingRequests := pendingRequests + 1;
      request := Some(TrialRequest(email, parsedId));
    }

    /** The rest of `handleFreePackageRequest`, once the call has produced
        `response`: success asks for a page reload, an error writes its
        message, and the `finally` block clears the submitting flag. */
    method FinishFreePackageRequest(response: TrialResponse)
      requires pendingRequests > 0
      modifies this
      ensures submissionState == FreePackageOutcome(response).state
      ensures errorMessage == (var m := FreePackageOutcome(response).message;
                               if m.Some? then m.value else old(errorMessage))
      ensures reloadRequested == (old(reloadRequested) || submissionState == Success)
      ensures !isSubmitting && pendingRequests == old(pendingRequests) - 1
      ensures email == old(email)
      ensures offer == old(offer) && searchResult == old(searchResult) && isLoading == old(isLoading)
      ensures isLoadingInfluencers == old(isLoadingInfluencers)
    {
      var outcome := FreePackageOutcome(response);
      submissionState := outcome.state;
      if outcome.message.Some? {
        errorMessage := outcome.message.value;
      }
      if outcome.state == Success {
        reloadRequested := true;
      }
      isSubmitting := false;
      pendingRequests := pendingRequests - 1;
    }

    /** `fetchOffer`, with the offer call's and the sample search's results as
        inputs. Without an id it returns at once and the page stays loading.
        Otherwise an OK offer is stored, its filters are sent as a search, and
        an OK search reply is stored normalised; a non-OK offer raises a
        "failed to load" notice and any thrown error the "error occurred"
        notice; the `finally` block ends both loading flags. */
    method FetchOffer(offerResponse: OfferResponse, sampleResponse: IndexPage.SearchResponse)
        returns (sampleRequest: Option<IndexPage.SearchRequest>, notice: Option<string>)
      modifies this
      ensures id.None? || id.value == "" ==>
        sampleRequest.None? && notice.None? &&
        offer == old(offer) && searchResult == old(searchResult) &&
        isLoading == old(isLoading) && isLoadingInfluencers == old(isLoadingInfluencers)
      ensures id.Some? && id.value != "" ==> !isLoading && !isLoadingInfluencers
      ensures id.Some? && id.value != "" ==>
        var loaded := offerResponse.OfferResponded? && offerResponse.ok && offerResponse.body.Some?;
        && offer == (if loaded then offerResponse.body else old(offer))
        && sampleRequest == (if loaded then Some(SampleSearchBody(offerResponse.body.value.filters)) else None)
        && searchResult ==
             (if loaded && sampleResponse.SearchResponded? && sampleResponse.ok && sampleResponse.body.Some?
              then Some(NormaliseSample(sampleResponse.body.value, offerResponse.body.value.filters.platform))
              else old(searchResult))
        && notice ==
             (if offerResponse.OfferResponded? && !offerResponse.ok then Some("Failed to load offer details")
              else if loaded && sampleResponse.SearchResponded? && sampleResponse.body.Some? then None
              else if loaded && sampleResponse.SearchResponded? && !sampleResponse.ok then None
              else Some("An error occurred while loading the offer"))
      ensures email == old(email) && isSubmitting == old(isSubmitting)
      ensures submissionState == old(submissionState) && errorMessage == old(errorMessage)
      ensures reloadRequested == old(reloadRequested) && pendingRequests == old(pendingRequests)
    {
      sampleRequest, notice := None, None;
      if id.None? || id.value == "" {
        return;
      }
      isLoading := true;
      match offerResponse {
        case OfferThrew =>
          notice := Some("An error occurred while loading the offer");
        case OfferResponded(ok, body) =>
          if !ok {
            notice := Some("Failed to load offer details");
          } else if body.None? {
            notice := Some("An error occurred while loading the offer");
          } else {
            var data := body.value;
            offer := Some(data);
            isLoadingInfluencers := true;
            sampleRequest := Some(SampleSearchBody(data.filters));
            match sampleResponse {
              case SearchThrew =>
                notice := Some("An error occurred while loading the offer");
              case SearchResponded(sampleOk, sampleBody) =>
                if sampleOk {
                  if sampleBody.None? {
                    notice := Some("An error occurred while loading the offer");
                  } else {
                    searchResult := Some(NormaliseSample(sampleBody.value, data.filters.platform));
                  }
                }
            }
          }
      }
      isLoading := false;
      isLoadingInfluencers := false;
    }
  }

  /** A client run: a page without an id never leaves its skeleton, and a
      request from it is never sent. */
  method MissingIdScenario(offerResponse: OfferResponse, sampleResponse: IndexPage.SearchResponse)
      returns (page: OfferView)
    ensures page.View() == Skeleton && page.pendingRequests == 0
  {
    page := new OfferView(None);
    var sampleRequest, notice := page.FetchOffer(offerResponse, sampleResponse);
    page.SetEmail("foo@bar.com");
    var request := page.BeginFreePackageRequest(Some(1));
    assert request.None?;
  }

  /** A client run: once an offer has loaded, whatever the sample search
      returned is stored but not shown; the sample section lists the preview
      component's default rows and total. */
  method LoadedOfferScenario(o: Offer, sampleResponse: IndexPage.SearchResponse) returns (page: OfferView)
    ensures page.offer == Some(o)
    ensures page.View() == Details(o, SearchResults.Listing(SearchResults.MockInfluencers, 11212, 11207),
                                   if |o.packages| > 0 then Some(PackageRows(o.packages)) else None)
  {
    page := new OfferView(Some("42"));
    var sampleRequest, notice := page.FetchOffer(OfferResponded(true, Some(o)), sampleResponse);
  }
}

=== FILE: pricing_packages.dfy ===
/** The package picker: three fixed packages and a custom package whose size
    is chosen with a slider or typed into a box and whose price follows three
    tiers. Prices are kept in tenths of a dollar, so the tier rates 0.5, 0.4
    and 0.3 dollars per influencer are the exact integers 5, 4 and 3. */
module PricingPackages {
  import opened JsValues

  /** One of the fixed packages; `price` in whole dollars. */
  datatype FixedPackage = FixedPackage(id: string, name: string, count: nat, price: nat, recommended: bool)

  const Packages: seq<FixedPackage> := [
    FixedPackage("starter", "Starter", 30, 99, false),
    FixedPackage("professional", "Professional", 100, 199, false),
    FixedPackage("enterprise", "Enterprise", 500, 299, true)
  ]

  /** The arguments of `onPurchase(packageType, count, price)`, the price in
      tenths of a dollar. `count` is None when the custom count array is empty
      (`customCount[0]` is `undefined`). */
  datatype Purchase = Purchase(packageType: string, count: Option<int>, priceTenths: int)

  /** The "Buy Package" button of a fixed package passes its own id, count and
      price. */
  function BuyFixed(p: FixedPackage): (r: Purchase)
    ensures r.packageType == p.id && r.count == Some(p.count) && r.priceTenths == 10 * p.price
  {
    Purchase(p.id, Some(p.count), 10 * p.price)
  }

  /** The fixed table: starter 30 for $99, professional 100 for $199 and
      enterprise 500 for $299, only the last one recommended; a larger package
      costs more but less per influencer. */
  lemma FixedPackagesTable()
    ensures |Packages| == 3
    ensures BuyFixed(Packages[0]) == Purchase("starter", Some(30), 990)
    ensures BuyFixed(Packages[1]) == Purchase("professional", Some(100), 1990)
    ensures BuyFixed(Packages[2]) == Purchase("enterprise", Some(500), 2990)
    ensures forall k :: 0 <= k < |Packages| ==> (Packages[k].recommended <==> k == 2)
    ensures forall i, j :: 0 <= i < j < |Packages| ==>
              Packages[i].count < Packages[j].count && Packages[i].price < Packages[j].price &&
              Packages[j].price * Packages[i].count < Packages[i].price * Packages[j].count
  {
  }

  /** `calculateCustomPrice`, in tenths of a dollar: zero exactly outside
      600..10000, and otherwise between 0.3 and 0.5 dollars per influencer. */
  function CustomPriceTenths(count: int): (r: int)
    ensures r == 0 <==> !(600 <= count <= 10000)
    ensures r != 0 ==> 3 * count <= r <= 5 * count
  {
    if 600 <= count <= 1000 then count * 5
    else if 1001 <= count <= 3000 then count * 4
    else if 3001 <= count <= 10000 then count * 3
    else 0
  }

  /** A price tier: the counts from `low` to `high` cost `rateTenths` tenths of
      a dollar each. */
  datatype Tier = Tier(low: int, high: int, rateTenths: int)

  const Tiers: seq<Tier> := [Tier(600, 1000, 5), Tier(1001, 3000, 4), Tier(3001, 10000, 3)]

  predicate InTier(t: Tier, count: int) {
    t.low <= count <= t.high
  }

  /** The tiers do not overlap and together cover exactly 600..10000; inside a
      tier the price is the count times that tier's rate, and outside all of
      them it is 0. */
  lemma TiersPartitionPrices(count: int)
    ensures forall i, j :: 0 <= i < j < |Tiers| ==> !(InTier(Tiers[i], count) && InTier(Tiers[j], count))
    ensures (exists i :: 0 <= i < |Tiers| && InTier(Tiers[i], count)) <==> 600 <= count <= 10000
    ensures forall i :: 0 <= i < |Tiers| && InTier(Tiers[i], count) ==>
              CustomPriceTenths(count) == count * Tiers[i].rateTenths
    ensures !(600 <= count <= 10000) ==> CustomPriceTenths(count) == 0
  {
    if 600 <= count <= 1000 {
      assert InTier(Tiers[0], count);
    } else if 1001 <= count <= 3000 {
      assert InTier(Tiers[1], count);
    } else if 3001 <= count <= 10000 {
      assert InTier(Tiers[2], count);
    }
  }

  /** The price rises with the count inside each tier, but drops where a tier
      ends: 1000 influencers cost $500 and 1001 cost $400.40; 3000 cost $1200
      and 3001 cost $900.30. */
  lemma PriceNotMonotone(m: int, n: int)
    ensures forall i :: 0 <= i < |Tiers| && InTier(Tiers[i], m) && InTier(Tiers[i], n) && m < n ==>
              CustomPriceTenths(m) < CustomPriceTenths(n)
    ensures CustomPriceTenths(1000) == 5000 && CustomPriceTenths(1001) == 4004
    ensures CustomPriceTenths(3000) == 12000 && CustomPriceTenths(3001) == 9003
  {
    forall i | 0 <= i < |Tiers| && InTier(Tiers[i], m) && InTier(Tiers[i], n) && m < n
      ensures CustomPriceTenths(m) < CustomPriceTenths(n)
    {
      TiersPartitionPrices(m);
      TiersPartitionPrices(n);
    }
  }

  /** `parseInt(value) || 600`: an unparsable value (NaN) or 0 is read as 600. */
  function TypedCount(parsed: Option<int>): int {
    IntOr(parsed, 600)
  }

  /** `Math.min(maxInfluencers, 10000)`: the largest count the custom package
      accepts. */
  function Cap(maxInfluencers: int): int {
    if maxInfluencers < 10000 then maxInfluencers else 10000
  }

  /** Whether `handleInputChange` takes a typed value, given its `parseInt`.
      An accepted value always has a price: it lies in the priced range and
      within the number of matches. */
  predicate InputAccepted(maxInfluencers: int, parsed: Option<int>)
    ensures InputAccepted(maxInfluencers, parsed) ==>
              600 <= TypedCount(parsed) <= maxInfluencers && CustomPriceTenths(TypedCount(parsed)) > 0
  {
    600 <= TypedCount(parsed) <= Cap(maxInfluencers)
  }

  /** What the acceptance rule means: a parsed value is taken iff it lies in
      600..min(maxInfluencers, 10000); an unparsable or zero value is taken
      as 600, iff 600 lies in that range; nothing is taken when
      maxInfluencers is below 600; and typing digit by digit into an empty
      box is refused at a first digit from 1 to 9, while a typed "0" counts
      as 600 and is taken whenever 600 is within the cap. */
  lemma InputAcceptedMeaning(maxInfluencers: int, parsed: Option<int>)
    ensures parsed.Some? && parsed.value != 0 ==>
              (InputAccepted(maxInfluencers, parsed) <==> 600 <= parsed.value <= maxInfluencers && parsed.value <= 10000)
    ensures parsed.None? || parsed == Some(0) ==>
              (InputAccepted(maxInfluencers, parsed) <==> maxInfluencers >= 600)
    ensures maxInfluencers < 600 ==> !InputAccepted(maxInfluencers, parsed)
    ensures forall d :: 1 <= d <= 9 ==> !InputAccepted(maxInfluencers, Some(d))
    ensures maxInfluencers >= 600 ==> InputAccepted(maxInfluencers, Some(0))
  {
  }

  /** The custom package's state: the slider's value array and the text of the
      input box. */
  class CustomPackage {
    const maxInfluencers: int
    var count: seq<int>
    var text: string

    /** Count [600], text "600". */
    constructor (maxInfluencers: int)
      ensures this.maxInfluencers == maxInfluencers
      ensures count == [600] && text == "600"
    {
      this.maxInfluencers := maxInfluencers;
      count := [600];
      text := "600";
    }

    /** `handleCustomCountChange`: stores the slider's array, then writes the
        decimal rendering of its first element into the box. For an empty
        array, `value[0].toString()` throws after the array was stored, and
        the text stays as it was. */
    method SliderChange(value: seq<int>) returns (threw: bool)
      modifies this
      ensures count == value
      ensures threw <==> |value| == 0
      ensures !threw ==> text == DecimalString(value[0])
      ensures threw ==> text == old(text)
    {
      count := value;
      if |value| == 0 {
        threw := true;
        return;
      }
      threw := false;
      text := DecimalString(value[0]);
    }

    /** `handleInputChange(raw)`, with `parsed` the value of `parseInt(raw)`: a
        value in range sets the count to it and the box to the raw text; any
        other value changes neither. */
    method InputChange(raw: string, parsed: Option<int>) returns (accepted: bool)
      modifies this
      ensures accepted <==> InputAccepted(maxInfluencers, parsed)
      ensures accepted ==> count == [TypedCount(parsed)] && text == raw
      ensures !accepted ==> count == old(count) && text == old(text)
    {
      accepted := InputAccepted(maxInfluencers, parsed);
      if accepted {
        count := [TypedCount(parsed)];
        text := raw;
      }
    }

    /** The shown custom price: `calculateCustomPrice(customCount[0])`, which
        is 0 when the array is empty (every comparison with `undefined`
        fails). */
    function Price(): (p: int)
      reads this
      ensures p >= 0
      ensures p > 0 <==> |count| > 0 && 600 <= count[0] <= 10000
    {
      if |count| > 0 then CustomPriceTenths(count[0]) else 0
    }

    /** The "Contact Us" view replaces the slider iff the count is at least
        10000. Its price is then 0, except at exactly 10000, the one count
        that both has a tier price and shows the contact view. */
    predicate ShowsContact()
      reads this
      ensures ShowsContact() ==> |count| > 0 && (Price() == 0 <==> count[0] != 10000)
    {
      |count| > 0 && count[0] >= 10000
    }

    /** The custom card is offered iff more than 500 influencers match. Where
        it is not offered, no typed value would have been accepted anyway. */
    predicate IsCustomAvailable()
      ensures !IsCustomAvailable() ==> forall parsed :: !InputAccepted(maxInfluencers, parsed)
    {
      maxInfluencers > 500
    }

    /** The purchase the custom card's button makes: "contact" with price 0 in
        the contact view, else "custom" with the shown price. */
    function CustomPurchase(): (r: Purchase)
      reads this
      ensures ShowsContact() ==> r.packageType == "contact" && r.priceTenths == 0
      ensures !ShowsContact() ==> r.packageType == "custom" && r.priceTenths == Price()
      ensures r.count == (if |count| > 0 then Some(count[0]) else None)
      ensures !ShowsContact() && |count| > 0 && count[0] >= 600 ==> r.priceTenths > 0
    {
      var first := if |count| > 0 then Some(count[0]) else None;
      if ShowsContact() then Purchase("contact", first, 0) else Purchase("custom", first, Price())
    }

    /** The slider's value array and the box always agree after a slider
        change: the text reads back as the first element. */
    method SliderKeepsTextInStep(value: seq<int>)
      requires |value| > 0
      modifies this
      ensures count == value && ParseDecimal(text) == Some(count[0])
    {
      var threw := SliderChange(value);
      DecimalRoundTrip(value[0]);
    }
  }

  /** With fewer than 600 matches but more than 500, the custom card is shown
      while every typed value is refused and the count stays 600. */
  method CustomCardUnusableBelow600(maxInfluencers: int, raw: string, parsed: Option<int>)
      returns (card: CustomPackage)
    requires 500 < maxInfluencers < 600
    ensures card.IsCustomAvailable()
    ensures card.count == [600] && card.text == "600"
  {
    card := new CustomPackage(maxInfluencers);
    var accepted := card.InputChange(raw, parsed);
    assert !accepted;
  }

  /** Clearing the box when 600 is within the cap: the count becomes 600
      while the box is left empty, so the two disagree. */
  method EmptyInputScenario(maxInfluencers: int) returns (card: CustomPackage)
    requires maxInfluencers >= 600
    ensures card.count == [600] && card.text == ""
  {
    card := new CustomPackage(maxInfluencers);
    var accepted := card.InputChange("", None);
  }
}

=== FILE: search_results.dfy ===
/** The result-preview component: which influencers are listed, the figure for
    the ones not listed, how follower and view counts are abbreviated, which
    platforms get an icon, the avatar fallback initials, and the loading
    branch. The component holds no state; everything here is a function of
    its props. */
module SearchResults {
  import opened JsValues

  /** One row of the preview, as the component's props declare it. */
  datatype Influencer = Influencer(
    id: string,
    name: string,
    username: string,
    avatar: string,
    platform: string,
    followers: int,
    avgViews: int,
    engagementRate: real,
    location: string,
    category: string,
    verified: bool)

  /** How many rows the preview lists at most. */
  const PreviewSize: nat := 5

  /** The `totalCount` prop when none is given. */
  const DefaultTotalCount: int := 11212

  /** The `results` prop when none is given. */
  const MockInfluencers: seq<Influencer> := [
    Influencer("1", "Emma Johnson", "@emmaj_lifestyle", "/placeholder.svg", "instagram",
               245000, 8500, 1.8, "United States", "Lifestyle", true),
    Influencer("2", "Alex Chen", "@alexchen_tech", "/placeholder.svg", "youtube",
               158000, 12300, 2.1, "Canada", "Technology", false),
    Influencer("3", "Sofia Martinez", "@sofia_beauty", "/placeholder.svg", "tiktok",
               89000, 6700, 1.5, "Spain", "Beauty", true),
    Influencer("4", "Mike Thompson", "@mikethompson_fit", "/placeholder.svg", "instagram",
               321000, 15400, 1.9, "United Kingdom", "Fitness", true),
    Influencer("5", "Lisa Wang", "@lisawang_food", "/placeholder.svg", "youtube",
               194000, 9800, 1.7, "Australia", "Food & Cooking", false)
  ]

  /** `results.slice(0, 5)`: the first min(5, |results|) rows, in their order. */
  function Preview(results: seq<Influencer>): (r: seq<Influencer>)
    ensures |r| == if |results| < PreviewSize then |results| else PreviewSize
    ensures forall k :: 0 <= k < |r| ==> r[k] == results[k]
  {
    if |results| <= PreviewSize then results else results[..PreviewSize]
  }

  /** The "N more influencers match" figure: the total less the preview size,
      not clamped at zero. */
  function MoreCount(totalCount: int): (r: int)
    ensures r + PreviewSize == totalCount
    ensures r < 0 <==> totalCount < PreviewSize
  {
    totalCount - PreviewSize
  }

  /** The figure is negative exactly when the total is below the preview size,
      and it accounts for every row the preview leaves out of a full list. */
  lemma MoreCountMeaning(results: seq<Influencer>, totalCount: int)
    ensures MoreCount(totalCount) < 0 <==> totalCount < PreviewSize
    ensures totalCount == |results| >= PreviewSize ==>
              |Preview(results)| + MoreCount(totalCount) == |results|
    ensures MoreCount(12) == 7
  {
  }

  /** The output of `formatNumber`. The scaled renderings print `num / 10^6`
      or `num / 10^3` with one decimal (`toFixed(1)`), which is not modelled;
      the unit suffix and the plain rendering are. */
  datatype NumberText = Millions(num: int) | Thousands(num: int) | Plain(digits: string)

  /** The unit suffix a formatted number ends with. */
  function Suffix(t: NumberText): string {
    match t
    case Millions(_) => "M"
    case Thousands(_) => "K"
    case Plain(_) => ""
  }

  /** `formatNumber`: the suffix "M" from one million up, "K" from one thousand
      up, and otherwise the plain decimal string, which reads back as `num`. */
  function FormatNumber(num: int): (r: NumberText)
    ensures Suffix(r) == "M" <==> num >= 1000000
    ensures Suffix(r) == "K" <==> 1000 <= num < 1000000
    ensures Suffix(r) == "" <==> num < 1000
    ensures r.Millions? || r.Thousands? ==> r.num == num
    ensures r.Plain? ==> ParseDecimal(r.digits) == Some(num)
  {
    if num >= 1000000 then Millions(num)
    else if num >= 1000 then Thousands(num)
    else (DecimalRoundTrip(num); Plain(DecimalString(num)))
  }

  /** The icons `getPlatformIcon` can return. */
  datatype Icon = InstagramIcon | YoutubeIcon | MusicIcon | TwitterIcon | TvIcon

  /** The platforms that have an icon. */
  const IconPlatforms: set<string> := {"instagram", "youtube", "tiktok", "twitter", "twitch"}

  /** `getPlatformIcon`: an icon for exactly the five known platform names and
      `null` (None) for any other. */
  function PlatformIcon(platform: string): (r: Option<Icon>)
    ensures r.Some? <==> platform in IconPlatforms
  {
    match platform
    case "instagram" => Some(InstagramIcon)
    case "youtube" => Some(YoutubeIcon)
    case "tiktok" => Some(MusicIcon)
    case "twitter" => Some(TwitterIcon)
    case "twitch" => Some(TvIcon)
    case _ => None
  }

  /** Each of the five platforms gets its own icon. */
  lemma PlatformIconsDistinct(p: string, q: string)
    requires p in IconPlatforms && q in IconPlatforms && p != q
    ensures PlatformIcon(p) != PlatformIcon(q)
  {
  }

  /** `s.split(' ')`: the pieces between single spaces, empty pieces included. */
  function SplitOnSpace(s: string): (parts: seq<string>)
    ensures |parts| > 0
    ensures forall k :: 0 <= k < |parts| ==> ' ' !in parts[k]
    decreases |s|
  {
    var i := FirstIndexOf(s, ' ');
    if i == |s| then [s] else [s[..i]] + SplitOnSpace(s[i + 1..])
  }

  /** `parts.join(' ')`. */
  function JoinWithSpace(parts: seq<string>): string
    requires |parts| > 0
  {
    if |parts| == 1 then parts[0] else parts[0] + " " + JoinWithSpace(parts[1..])
  }

  /** Splitting loses nothing: joining the pieces gives the name back. */
  lemma {:induction false} SplitJoinRoundTrip(s: string)
    ensures JoinWithSpace(SplitOnSpace(s)) == s
    decreases |s|
  {
    var i := FirstIndexOf(s, ' ');
    if i < |s| {
      SplitJoinRoundTrip(s[i + 1..]);
      assert s == s[..i] + " " + s[i + 1..];
    }
  }

  /** `n[0]` joined as a string: the first character, or nothing for an empty
      piece (`undefined` joins as ""). */
  function FirstChar(piece: string): string {
    if piece == [] then [] else [piece[0]]
  }

  /** One character at most per piece, and no space when no piece holds one. */
  function ConcatFirstChars(parts: seq<string>): (r: string)
    ensures |r| <= |parts|
    ensures (forall k :: 0 <= k < |parts| ==> ' ' !in parts[k]) ==> ' ' !in r
  {
    if parts == [] then [] else FirstChar(parts[0]) + ConcatFirstChars(parts[1..])
  }

  /** The avatar fallback: `name.split(' ').map(n => n[0]).join('')`. It has
      at most one character per piece and never a space. */
  function Initials(name: string): (r: string)
    ensures |r| <= |SplitOnSpace(name)|
    ensures ' ' !in r
  {
    ConcatFirstChars(SplitOnSpace(name))
  }

  /** A reference definition of the initials, scanning the name once: every
      character that is not a space and that starts the name or follows a
      space, in order. `atStart` says whether the previous character was a
      space (or there was none). */
  function WordStarts(s: string, atStart: bool): string
    decreases |s|
  {
    if s == [] then []
    else (if atStart && s[0] != ' ' then [s[0]] else []) + WordStarts(s[1..], s[0] == ' ')
  }

  /** Scanning a run without spaces adds only its first character, and only
      when the run starts a word. */
  lemma {:induction false} WordStartsOverPiece(piece: string, rest: string, atStart: bool)
    requires ' ' !in piece
    ensures WordStarts(piece + rest, atStart)
         == (if atStart then FirstChar(piece) else []) + WordStarts(rest, if piece == [] then atStart else false)
    decreases |piece|
  {
    if piece != [] {
      assert piece[0] in piece;
      assert (piece + rest)[0] == piece[0] && (piece + rest)[1..] == piece[1..] + rest;
      assert ' ' !in piece[1..] by {
        forall k | 0 <= k < |piece[1..]| ensures piece[1..][k] != ' ' {
          assert piece[1..][k] == piece[k + 1] && piece[k + 1] in piece;
        }
      }
      WordStartsOverPiece(piece[1..], rest, false);
    } else {
      assert piece + rest == rest;
    }
  }

  /** The initials are exactly the word-start characters of the name: the first
      character of each space-separated piece, in order, with empty pieces
      contributing nothing. */
  lemma {:induction false} InitialsAreWordStarts(name: string)
    ensures Initials(name) == WordStarts(name, true)
    decreases |name|
  {
    var i := FirstIndexOf(name, ' ');
    if i == |name| {
      assert name == name + [];
      assert SplitOnSpace(name) == [name];
      assert ConcatFirstChars([name]) == FirstChar(name) + ConcatFirstChars([]);
      WordStartsOverPiece(name, [], true);
    } else {
      var piece, rest := name[..i], name[i + 1..];
      assert name == piece + ([' '] + rest);
      WordStartsOverPiece(piece, [' '] + rest, true);
      var b := if piece == [] then true else false;
      assert WordStarts([' '] + rest, b) == WordStarts(rest, true) by {
        assert ([' '] + rest)[1..] == rest;
      }
      InitialsAreWordStarts(rest);
    }
  }

  /** What the component renders: the spinner alone, or the listing with its
      preview rows, the total shown in the heading and the "more" figure. */
  datatype ResultsView =
    | Spinner
    | Listing(preview: seq<Influencer>, totalCount: int, more: int)

  /** The component on its props; an absent prop (`undefined`) takes its default
      (the mock list, 11212, not loading). */
  function Render(results: Option<seq<Influencer>>, totalCount: Option<int>,
                  isLoading: Option<bool>): (v: ResultsView)
    ensures v.Spinner? <==> isLoading == Some(true)
    ensures v.Listing? ==>
      && v.preview == Preview(if results.Some? then results.value else MockInfluencers)
      && v.totalCount == (if totalCount.Some? then totalCount.value else DefaultTotalCount)
      && v.more == MoreCount(v.totalCount)
      && |v.preview| <= PreviewSize
  {
    var loading := if isLoading.Some? then isLoading.value else false;
    if loading then Spinner
    else
      var rows := if results.Some? then results.value else MockInfluencers;
      var total := if totalCount.Some? then totalCount.value else DefaultTotalCount;
      Listing(Preview(rows), total, MoreCount(total))
  }

  /** With no props the component lists all five mock influencers and reports
      11207 more. */
  lemma DefaultListing()
    ensures Render(None, None, None) == Listing(MockInfluencers, 11212, 11207)
  {
  }
}

=== FILE: trial_section.dfy ===
/** The landing page's free-trial form: an email box whose submission is
    checked against a loose, unanchored pattern and, when it passes, turns the
    form into a "done" card one second later. The timer is not modelled as
    time: `Submit` schedules it and `TimerFires` is its callback. */
module TrialSection {
  import opened JsValues
  import OfferPage

  /** No character of `s` from index `lo` up to (not including) `hi` is
      whitespace. */
  predicate NonSpaceRun(s: string, lo: int, hi: int)
    requires 0 <= lo <= hi <= |s|
  {
    forall k :: lo <= k < hi ==> !IsSpace(s[k])
  }

  /** A non-empty non-space run ends just before index `i`. */
  ghost predicate RunEndsAt(s: string, i: int) {
    exists p :: 0 <= p < i <= |s| && NonSpaceRun(s, p, i)
  }

  /** A non-empty non-space run starts at index `j`. */
  ghost predicate RunStartsAt(s: string, j: int) {
    exists q :: 0 <= j < q <= |s| && NonSpaceRun(s, j, q)
  }

  /** The language of the unanchored `/\S+@\S+\.\S+/`: somewhere in `s` a
      non-empty run of non-space characters, '@', a non-empty run, '.', and a
      non-empty run. The runs may themselves hold '@' and '.'. */
  ghost predicate ContainsEmailPattern(s: string) {
    exists i, j ::
      0 < i && i + 1 < j < |s| && s[i] == '@' && s[j] == '.' &&
      RunEndsAt(s, i) && NonSpaceRun(s, i + 1, j) && RunStartsAt(s, j + 1)
  }

  /** An '@' at `i` with a non-space character before it, followed by a
      space-free stretch ending in the '.' at `j`, with a non-space character
      after it. */
  predicate AtAndDot(s: string, i: int, j: int)
    requires 1 <= i && i + 1 < j && j + 1 < |s|
  {
    s[i] == '@' && s[j] == '.' && !IsSpace(s[i - 1]) && NonSpaceRun(s, i + 1, j) && !IsSpace(s[j + 1])
  }

  /** The check in the form it is decided: some '@' and '.' stand as
      `AtAndDot` describes. */
  function LooseEmailCheck(s: string): (r: bool)
    ensures r ==> |s| >= 5
  {
    exists i, j | 1 <= i && i + 1 < j && j + 1 < |s| :: AtAndDot(s, i, j)
  }

  /** The check accepts exactly the strings that contain the pattern. */
  lemma LooseEmailCheckIsPattern(s: string)
    ensures LooseEmailCheck(s) <==> ContainsEmailPattern(s)
  {
    if ContainsEmailPattern(s) {
      var i, j :| 0 < i && i + 1 < j < |s| && s[i] == '@' && s[j] == '.' &&
        RunEndsAt(s, i) && NonSpaceRun(s, i + 1, j) && RunStartsAt(s, j + 1);
      var p :| 0 <= p < i <= |s| && NonSpaceRun(s, p, i);
      var q :| 0 <= j + 1 < q <= |s| && NonSpaceRun(s, j + 1, q);
      assert !IsSpace(s[i - 1]) && !IsSpace(s[j + 1]);
      assert AtAndDot(s, i, j);
    }
    if LooseEmailCheck(s) {
      var i, j :| 1 <= i && i + 1 < j && j + 1 < |s| && AtAndDot(s, i, j);
      assert NonSpaceRun(s, i - 1, i) && NonSpaceRun(s, j + 1, j + 2);
      assert RunEndsAt(s, i) && RunStartsAt(s, j + 1);
    }
  }

  /** Every address the offer page accepts passes this check too. */
  lemma OfferPageEmailPassesLooseCheck(s: string)
    ensures OfferPage.IsValidEmail(s) ==> LooseEmailCheck(s)
  {
    if OfferPage.IsValidEmail(s) {
      var i := FirstIndexOf(s, '@');
      var j :| i + 1 < j < |s| - 1 && s[j] == '.';
      assert OfferPage.Plain(s[i - 1]) && OfferPage.Plain(s[j + 1]);
      assert forall k :: i + 1 <= k < j ==> OfferPage.Plain(s[k]);
      assert AtAndDot(s, i, j);
    }
  }

  /** The converse fails, as a fact about the two patterns: text around the
      address, and a second '@', pass here and are refused on the offer page.
      (The browser's own checks on an email box would stop these inputs
      before the handler; they are not modelled.) */
  lemma LooseCheckAcceptsMore()
    ensures LooseEmailCheck(" a@b.c") && !OfferPage.IsValidEmail(" a@b.c")
    ensures LooseEmailCheck("a@@b.c") && !OfferPage.IsValidEmail("a@@b.c")
  {
    assert NonSpaceRun(" a@b.c", 3, 4) && AtAndDot(" a@b.c", 2, 4);
    assert NonSpaceRun("a@@b.c", 3, 4) && AtAndDot("a@@b.c", 2, 4);
    assert !OfferPage.Plain(" a@b.c"[0]);
    OfferPage.FirstAt("a@@b.c", 1);
    assert !OfferPage.Plain("a@@b.c"[2]);
  }

  const InvalidEmailNotice: string := "Please enter a valid email address"
  const SentNotice: string := "Trial package will be sent to your email within 5 minutes"

  /** A submission goes ahead iff the email is non-empty and passes the check. */
  predicate SubmissionAccepted(email: string)
    ensures SubmissionAccepted(email) ==> |email| >= 5
    ensures OfferPage.IsValidEmail(email) ==> SubmissionAccepted(email)
  {
    OfferPageEmailPassesLooseCheck(email);
    email != "" && LooseEmailCheck(email)
  }

  /** What the component renders. */
  datatype TrialView = FormView(email: string) | DoneView(email: string)

  /** The form's state cells. */
  class TrialForm {
    var email: string
    var isSubmitted: bool
    /** Timers started by accepted submissions that have not fired yet. */
    var pendingTimers: nat

    /** An empty box, not submitted, no timer. */
    constructor ()
      ensures email == "" && !isSubmitted && pendingTimers == 0
    {
      email, isSubmitted, pendingTimers := "", false, 0;
    }

    /** The form while nothing was submitted, the "done" card afterwards,
        which names the email as it stands now. */
    function View(): (v: TrialView)
      reads this
      ensures v.DoneView? <==> isSubmitted
      ensures v.email == email
    {
      if isSubmitted then DoneView(email) else FormView(email)
    }

    /** Typing into the box, which exists only while the form is shown. */
    method EmailChange(value: string)
      requires !isSubmitted
      modifies this
      ensures email == value
      ensures isSubmitted == old(isSubmitted) && pendingTimers == old(pendingTimers)
    {
      email := value;
    }

    /** `handleSubmit`, invoked directly with the email state: an empty or
        failing email raises the error notice and changes nothing; any other
        starts the one-second timer. */
    method Submit() returns (scheduled: bool, notice: Option<string>)
      requires !isSubmitted
      modifies this
      ensures scheduled <==> SubmissionAccepted(email)
      ensures !scheduled ==> notice == Some(InvalidEmailNotice) && pendingTimers == old(pendingTimers)
      ensures scheduled ==> notice.None? && pendingTimers == old(pendingTimers) + 1
      ensures email == old(email) && isSubmitted == old(isSubmitted)
    {
      if !SubmissionAccepted(email) {
        return false, Some(InvalidEmailNotice);
      }
      pendingTimers := pendingTimers + 1;
      return true, None;
    }

    /** The timer's callback: the form is marked submitted and the success
        notice is raised; a second timer from a double submission does the
        same again. */
    method TimerFires() returns (notice: string)
      requires pendingTimers > 0
      modifies this
      ensures isSubmitted && notice == SentNotice
      ensures pendingTimers == old(pendingTimers) - 1
      ensures email == old(email)
    {
      isSubmitted := true;
      pendingTimers := pendingTimers - 1;
      notice := SentNotice;
    }
  }

  /** A client run: an accepted email, edited while its timer is pending, is
      the one the "done" card names. */
  method EditWhilePendingScenario() returns (form: TrialForm)
    ensures form.View() == DoneView("b@c.de")
  {
    form := new TrialForm();
    form.EmailChange("a@b.cd");
    assert NonSpaceRun("a@b.cd", 2, 3) && AtAndDot("a@b.cd", 1, 3);
    var scheduled, notice := form.Submit();
    assert scheduled;
    form.EmailChange("b@c.de");
    var sent := form.TimerFires();
  }

  /** A client run: an accepted email left as it is until the timer fires is
      the one the "done" card names, and the form stays submitted. */
  method SubmitThenDoneScenario(e: string) returns (form: TrialForm)
    requires SubmissionAccepted(e)
    ensures form.View() == DoneView(e) && form.pendingTimers == 0
  {
    form := new TrialForm();
    form.EmailChange(e);
    var scheduled, notice := form.Submit();
    var sent := form.TimerFires();
  }

  /** A client run through the form: an address with no dot in its domain,
      such as "a@b" or "user@localhost", is a valid address for a
      `type="email"` box, so the form hands it to the handler, which refuses
      it with the error notice and schedules nothing. */
  method DotlessDomainScenario() returns (form: TrialForm, notices: seq<Option<string>>)
    ensures notices == [Some(InvalidEmailNotice), Some(InvalidEmailNotice)]
    ensures form.View() == FormView("user@localhost") && form.pendingTimers == 0
  {
    form := new TrialForm();
    form.EmailChange("a@b");
    var scheduled, notice := form.Submit();
    form.EmailChange("user@localhost");
    var scheduled2, notice2 := form.Submit();
    notices := [notice, notice2];
  }
}
